=== FILE: README.md ===
# static: a Dafny model of the Cling/Shock WSGI file server

`static` serves the files under a root directory as a WSGI application.
`Cling` maps `PATH_INFO` onto the root and answers GET and HEAD. It refuses
other methods with 405 and paths that escape the root with 404. A directory
named without its trailing slash is redirected with 301, and a directory named
with it is served through its index file. It answers conditional requests
with 304 and otherwise sends the file in blocks. `Shock` adds "magics": when
a path does not exist, the first registered magic whose extension, appended
to the path, names an existing file takes over. The handler then types the
response by the bare name, uses the clock for the validators, and renders
the template instead of sending its bytes.

The model is split into modules:

- `Paths`: `posixpath.abspath` as segment resolution against a working
  directory, including the POSIX rule that keeps exactly two leading slashes.
  It also holds the root-containment guard and its characterisation on
  segments.
- `Files`: a filesystem as a map from canonical segment lists to files and
  directories, with `stat`, `exists`, `isdir` and `open`.
- `Host`: everything the handler asks of its environment, passed in as
  function parameters: `mimetypes`, `formatdate`/`parsedate`, `str()` of an
  mtime or an integer, `wsgiref.util.request_uri`, and the two template
  engines.
- `Chunking`: `_iter_and_close` over a reader with Python's `read(n)`
  semantics.
- `Magics`: `BaseMagic`, `StringMagic`/`MoustacheMagic` and `Shock`'s
  `_match_magic`, `_full_path` and `_guess_type`.
- `Conditional`: the If-Modified-Since / If-None-Match test.
- `Utf8`: `str.encode('utf-8')` for the status apps' messages, with a decoder
  that reads the bytes back.
- `Static`: `StatusApp` and one handler function, `Handle`. `Cling(root)` is
  the handler with no magics; `Shock(root, magics)` is the handler with them.
- `StaticProps`: properties of whole requests.

A call either answers a response (status, headers, body chunks) or ends in
`Raised`. `Raised` is an exception other than `IOError`/`OSError`: the ValueError
that `stat` and `open` raise for a path with a NUL character, the ValueError
that the first `read` of a GET's file raises for a block size below -1, or
a template engine failing. The clock is read once per request
(`Machine.now`).

## Model

| member | source | states |
|---|---|---|
| Static.StatusAppMessage | static/apps.py:29-34 | A status app keeps its status; its message is the one given, or the status line itself when none is given |
| Static.CallStatusApp | static/apps.py:36-41 | A status app answers with its status and the given headers, and exactly one body chunk: the UTF-8 bytes of its message (any message) for GET, nothing for any other method |
| Utf8.EncodeChar | static/apps.py:39 | One character encodes to the shortest form for its code point (one byte below U+0080, two below U+0800, three below U+10000, four above): a single byte equal to its code exactly when it is ASCII; otherwise a lead byte that announces the length, then continuation bytes |
| Utf8.CharRoundTrip | static/apps.py:39 | Every character's bytes decode back to that character |
| Utf8.DecodedCharEncodes | static/apps.py:39 | Every byte group the decoder accepts is the encoding of the character it yields, so overlong and malformed forms are refused |
| Utf8.EncodeRoundTrip | static/apps.py:39 | Decoding the UTF-8 encoding of any message gives the message back |
| Utf8.DecodedEncodes | static/apps.py:39 | Every byte string the decoder accepts is the encoding of the text it yields: decoding and encoding are inverse both ways |
| Utf8.EncodeSize | static/apps.py:39 | An encoding takes one to four bytes per character, exactly one per character precisely when the message is ASCII, and then each byte is the character's code |
| Static.Cling | static/apps.py:55-69 | `Cling(root)` keeps the root and takes the defaults: block size `16 * 4096` (65536), index file `index.html`, no magics |
| Static.Shock | static/apps.py:212-214 | `Shock(root, magics)` is `Cling(root)` with the given magics |
| StaticProps.MethodCheckedFirst | static/apps.py:88-89 | A method other than GET or HEAD gets 405 with no headers and an empty body, the same for every handler, filesystem and path |
| Static.Handle | static/apps.py:86-124 | The handler answers only 405, 404, 301, 304 or 200. It answers 405 exactly for a method other than GET and HEAD, and 301 only for a resolved path that is a directory. A template failure escapes only from GET, and so does the ValueError of a block size below -1 |
| Static.Serve | static/apps.py:103-124 | From the resolved path on, the answer is 404, 304 or 200. A NUL character in a path no magic claims always raises. Otherwise an exception escapes only for a path with a NUL character, from a template rendering a GET, or from the first `read` of a GET for a plain file when the block size is below -1 |
| Static.PathValidators | static/apps.py:243-250 | The validators exist exactly when a magic claims the path or something exists under it. A magic's Last-Modified reads back as the current time. Otherwise the ETag is `str(mtime)` and Last-Modified reads back as the mtime |
| Static.GetBody | static/apps.py:260-267 | A template renders one chunk or fails. A plain file fails exactly when the block size is below -1 (the ValueError of `read`); otherwise, for a non-zero block size, its chunks put together are the file's bytes |
| StaticProps.NulPathRaises | static/apps.py:103-124 | A path inside the root that holds a NUL character and that no magic claims makes `stat` raise ValueError, which is not caught: no response at all |
| Paths.ContainmentBySegments | static/apps.py:130-137 | The guard accepts a path exactly when, after normalisation, the root's components are a prefix of the path's and the leading slashes agree. A root with no components contains only itself, apart from the `//` case |
| Paths.RootAccepted | static/apps.py:130-137 | For any root other than `""`, `/` and `//`, the root itself and the root with a trailing slash pass the guard and normalise alike (a root of `/` falls under the quirk below) |
| Paths.DescendantAccepted | static/apps.py:130-137 | Root, slash, then any path of ordinary names passes the guard |
| Paths.SlashRootRejectsName | static/apps.py:130-137 | For the root `/`, the path `/name` fails the guard |
| Paths.SlashRootAcceptsRequest | static/apps.py:128-137 | For the root `/`, `"/" + path_info` with `path_info` starting with exactly one slash passes the guard |
| Paths.ParentEscapes | static/apps.py:130-137 | `root/..` fails the guard |
| Paths.SiblingRejected | static/apps.py:130-137 | A sibling whose name begins with the root's last name (`root` + `x`, and anything below it) fails the guard |
| Paths.RelativeUsesCwd | static/apps.py:132-133 | A relative path normalises as `posixpath.join(os.getcwd(), path)` does |
| Paths.Canon | static/apps.py:132-133 | `abspath` gives one or two leading slashes and a list of proper names: none empty, `.` or `..`, none holding a separator |
| Paths.SplitConcat | static/apps.py:132-133 | Splitting `a/b` on the separator splits `a` and `b` independently |
| Paths.JoinSplit | static/apps.py:132-133 | Joining the pieces of a split with the separator gives the text back |
| StaticProps.OutsideRootNotFound | static/apps.py:90-93 | A resolved path that fails the guard is answered with the 404 status app and no headers, whatever is on disk |
| StaticProps.ParentOfRootNotFound | static/apps.py:90-93 | For `Cling(parent/name)`, the request path `../rest` gets 404 |
| StaticProps.DirectoryRedirected | static/apps.py:94-100 | A directory named without a trailing slash, or the root itself, gets 301 with one Location header: the request URI, a slash, and `?query` when a query string is present |
| Static.LocationShape | static/apps.py:96-98 | The Location is the request URI and a slash, followed by `?` and the query string exactly when a non-empty one was sent |
| StaticProps.RedirectKeepsQuery | static/apps.py:96-98 | With query `foo=1` the Location is the URI followed by `/?foo=1` |
| StaticProps.DirectoryServesIndex | static/apps.py:101-102 | A directory named with its trailing slash (not the root) is served as path_info plus the index file, resolved again |
| StaticProps.MissingIndexNotFound | static/apps.py:101-105 | Without magics, such a directory with no index file gets 404 (for an index file name without a NUL character) |
| StaticProps.OpenFailureNotFound | static/apps.py:116-124 | Once the validators are known and no conditional header hits, a path without a NUL character that cannot be opened gets 404 with no headers, the `open` half of "any IOError/OSError is 404" |
| StaticProps.NothingOnDiskNotFound | static/apps.py:104-105 | A path without a NUL character that no magic claims and nothing on disk answers to gets 404 from the failing stat, with no headers |
| StaticProps.ConditionalAnswer | static/apps.py:105-115 | Given the validators: a conditional hit gets 304 with exactly Date, Last-Modified, ETag and an empty body; no hit never gets 304 |
| StaticProps.NotModifiedShape | static/apps.py:105-115 | Every 304 the handler sends carries exactly Date, Last-Modified, ETag (in that order) and an empty body, for every request |
| StaticProps.OkShape | static/apps.py:105-118 | Every 200 the handler sends carries Date, Last-Modified, ETag, then a non-empty Content-Type |
| StaticProps.PlainFileReachesServe | static/apps.py:90-94 | Without magics, a regular file inside the root is served from `root + path_info` |
| StaticProps.PlainFileServed | static/apps.py:103-122 | A plain file with no conditional hit gets 200 with Last-Modified `formatdate(mtime)`, ETag `str(mtime)` and the guessed type; GET gets the file's blocks, which put together give its bytes for a non-zero block size; HEAD gets an empty body. A GET with a block size below -1 raises instead |
| StaticProps.ClingServesFileBytes | static/apps.py:86-124 | `Cling(root)` answers GET for a regular file under the root with 200 and exactly the file's bytes |
| StaticProps.EchoedETagNotModified | static/apps.py:113-115 | If-None-Match equal to the ETag that was sent gets 304 |
| StaticProps.LaterModifiedSinceNotModified | static/apps.py:109-112 | If-Modified-Since at or after the file's mtime gets 304 (when dates survive format and parse) |
| StaticProps.HeadMirrorsGet | static/apps.py:119-122 | HEAD gets the status and headers GET would get, with an empty body. Where GET's template or first `read` raises, HEAD still gets 200. HEAD raises exactly when GET raises the ValueError of a NUL character |
| Conditional.Evaluate | static/apps.py:109-115 | If-Modified-Since hits exactly when it is present and parses to a time not before Last-Modified. Otherwise If-None-Match hits when it is `*` or contains the ETag. Only with neither hit does the request proceed |
| Conditional.DateDecidesFirst | static/apps.py:109-112 | A date hit decides the request whatever If-None-Match holds |
| Conditional.EchoedTagNotModified | static/apps.py:113-115 | An If-None-Match list that contains the ETag anywhere is a hit |
| Conditional.SubstringTagMatches | static/apps.py:114 | The substring test matches ETag `1.5` inside If-None-Match `11.55` |
| Conditional.AbsentTagProceeds | static/apps.py:109-115 | Without a date hit, an If-None-Match other than `*` in which the ETag occurs at no position lets the request proceed |
| Common.ContainsAt | static/apps.py:114 | A string that contains a tag in the sense of Python's `in` has it at some position |
| Files.Stat | static/apps.py:143-146 | `stat` finds a node only for a non-empty path without a NUL character whose canonical form is in the filesystem, and a path ending in `/`, `.` or `..` never finds a file |
| Files.ExistsMeans | static/apps.py:285 | `os.path.exists` holds exactly for a non-empty path without a NUL character whose canonical form is in the filesystem, and that names a directory or does not end in `/`, `.` or `..` |
| Files.IsDirMeans | static/apps.py:94 | `os.path.isdir` holds exactly for a non-empty path without a NUL character whose canonical form is a directory; every directory exists |
| Files.Open | static/apps.py:148-150 | `open(path, 'rb')` succeeds exactly for an existing non-directory and yields that file's bytes; it never succeeds for a path with a NUL character |
| Host.ContentType | static/apps.py:139-141 | The guessed type, or `text/plain` when there is none; never empty |
| Chunking.Blocks | static/apps.py:158-169 | For a block size of -1 or above other than 0 the blocks put together are the whole file; -1 yields it in one block. Nothing is yielded exactly for an empty file, a zero block size, or one below -1 |
| Chunking.BlockSizes | static/apps.py:158-169 | Every yielded block is non-empty; for a positive block size each is at most `block_size` and all but the last are exactly `block_size` |
| Chunking.IterAndClose | static/apps.py:158-169 | The loop yields exactly `Blocks(content, block_size)`. It raises exactly for a block size below -1, and then has yielded nothing, read nothing and never closed the file. Otherwise it has closed the file exactly once, and for a non-zero block size has read to the end and yielded the whole file |
| Chunking.ReadLoop | static/apps.py:160-169 | With a read size `read` accepts, the loop yields `Blocks(content, block_size)`, closes the file once, and for a non-zero size leaves it at the end |
| Chunking.Read | static/apps.py:162 | `read(n)` raises (no result) exactly for `n` below -1 |
| Chunking.Take | static/apps.py:162 | An accepted `read(n)` returns the next `min(n, remaining)` bytes (all that remain for -1, none for 0) from the current position and advances past them |
| Magics.NewMagic | static/apps.py:321-326 | A magic's extension is the one given when it is non-empty, otherwise the class default (`.stp`, `.mst`); never empty |
| Magics.OldPath | static/apps.py:292-294 | `full_path[:-len(ext)]` is a prefix of the path, and empty for an empty extension |
| Magics.NewPath | static/apps.py:288-290 | The augmented path is the path followed by the extension, and nothing else |
| Magics.Matches | static/apps.py:296-299 | A magic claims only a non-empty path at least as long as its extension and ending in it. A magic with an empty extension claims every non-empty path |
| Magics.NewPathRoundTrip | static/apps.py:288-299 | Taking the extension off an augmented path gives the path back, and the augmented path matches its magic |
| Magics.OldPathRoundTrip | static/apps.py:288-299 | A path a magic matches is the augmented form of its stripped path |
| Magics.ExistsAugmented | static/apps.py:283-286 | `exists` returns the augmented path exactly when something exists under that name |
| Magics.FirstWhere | static/apps.py:216-220 | The registration-order scan returns the first magic that passes the test, and none only when none does |
| Magics.MatchMagic | static/apps.py:216-220 | `_match_magic` returns the first magic, in registration order, whose extension ends the path, and nothing only when no magic matches |
| Magics.EarlierRegistrationWins | static/apps.py:216-220 | Of two magics with the same extension, the later one is never chosen |
| Magics.ResolveFullPath | static/apps.py:222-232 | `Shock._full_path` returns the literal path or one magic's augmented path; the literal path whenever it exists, and also when no augmented path exists |
| Magics.MissingPathUsesFirstTemplate | static/apps.py:222-232 | When the literal path is missing, the first magic whose augmented path exists supplies the resolved path |
| Magics.NoMagicsLiteralPath | static/apps.py:126-128 | With no magics the resolved path is `root + path_info`, as in `Cling._full_path` |
| Magics.GuessType | static/apps.py:234-241 | A path a magic matches is typed by the path with the extension taken off, any other path by itself; never empty |
| Magics.AugmentedTypedByBareName | static/apps.py:234-241 | An augmented path is typed as its bare name |
| Magics.MergeVariables | static/apps.py:328-338 | The template sees every key of environ and of the magic's variables, and the magic's own variables win |
| Magics.ExplicitVariablesShieldEnviron | static/apps.py:328-338 | A string template renders alike for two environs that differ only on keys the magic sets itself: the request cannot override an explicit variable |
| Magics.MagicValidators | static/apps.py:301-304 | A magic's ETag is the current time as an integer, and its Last-Modified reads back as the current time |
| StaticProps.BareAndAugmentedResolveAlike | static/apps.py:222-232 | For `Shock(root, magics)`, requesting a template by its bare name or by its full name resolves to the same file |
| StaticProps.TemplateServed | static/apps.py:243-264 | `Shock(root, magics)` answers a template requested by its bare name with 200, both validators from the clock, the bare name's type, and the rendered template as the one body chunk |
| StaticProps.MissingTemplateStar | static/apps.py:243-247 | A path ending in a magic's extension takes its validators from the clock without a `stat`, so when neither it nor any augmented form exists, `If-None-Match: *` still gets 304 |
| StaticProps.MissingTemplateNotFound | static/apps.py:116-124 | The same missing template path, without conditional headers and without a NUL character, gets 404, because its `open` fails |

## Left out

- The real filesystem is a map from canonical component lists to nodes. Symbolic links, permissions and the physical directory walk are left out.
- Modification times are integers; `str(st_mtime)` and `formatdate` are abstract functions of the platform. Dates are assumed to parse: a malformed If-Modified-Since (where `parsedate` returns `None`) is not modelled.
- `time.time()` is read once per request (`Machine.now`). The source reads it separately for the Date header and for a magic's validators.
- `wsgiref.util.request_uri` is an abstract function of the environ; the lemmas about HEAD assume it ignores the request method.
- `wsgi.file_wrapper` is left out: the body is always `_iter_and_close`'s.
- Custom `not_found` / `not_modified` / `moved_permanently` / `method_not_allowed` apps are left out; the handler uses the default status apps.
- The logger, `cling_wrap`, the command line and packaging are left out.
- `string.Template.safe_substitute` and pystache are abstract functions of the platform; only the variable merge is modelled.
- `MagicError`, gzip serving and `BaseMagic.body` (which raises) are left out.
- `_iter_and_close` is a lazy generator. The model produces the whole list of blocks, so a client that stops reading early, and therefore never closes the file, is not modelled. `StringMagic.body` reads its file without closing it, and that is not modelled either.
- HEAD's body in the source is `['']`, a text string; the model gives it one empty byte chunk.
- A request without `REQUEST_METHOD` raises `KeyError` in the source; the model requires the key.
- A HEAD request opens the file (line 116) and answers `['']` without ever closing it (lines 121-122). The model's files have no open/closed state outside `Chunking`, so only `Chunking.IterAndClose` says anything about closing, and the unclosed HEAD file is not modelled.
- Static.Serve: a template failure and the ValueError of a block size below -1 both come after `start_response("200 OK", headers)` (line 118), the second only once the host iterates the body. The model reports them as `Raised` and does not record that the 200 status and headers were already handed to the host.
- `os.path.exists` and `os.path.isdir` answer False for a path with a NUL character, as they do from Python 3.8 on; earlier versions let the ValueError escape from them too.

Two behaviours of the code worth knowing:

- A malformed If-Modified-Since is not treated as absent: `parsedate` returns `None` and the comparison with the parsed Last-Modified is left to Python. The model assumes every date parses.
- A file is not closed when the client abandons the body: closing the generator raises `GeneratorExit` at the `yield`, which the `except StopIteration` branch does not catch.

A quirk of the guard is kept as written: a root that normalises to `/` rejects every ordinary absolute path. Its `abspath` plus separator is `//`, and `/x/` does not start with that (`Paths.SlashRootRejectsName`). This does not block `Cling("/")` itself: it builds `"/" + path_info`, and for a `path_info` such as `/x` that is `//x`, which `abspath` keeps with two slashes, so the guard accepts it (`Paths.SlashRootAcceptsRequest`). `Paths.ContainmentBySegments` states both cases exactly.

=== FILE: chunking.dfy ===
/** `_iter_and_close`: read a file in blocks of `block_size` until a read
    comes back empty, yield every non-empty block, then close the file.

    `Blocks` is the sequence the generator yields, defined directly from the
    contents; `IterAndClose` runs the read loop against a file and is proved
    to yield exactly `Blocks` and to close the file once. The file is a
    Python 3 `BufferedReader`: `read(-1)` reads everything left, `read(0)`
    nothing, and `read(n)` for `n` below -1 raises ValueError, which the
    generator does not catch, so the file is then never closed. */
module Chunking {
  import opened Common

  /** An open binary file: its contents, the read position, and how many
      times `close()` has been called. */
  datatype Reader = Reader(content: Bytes, pos: nat, closes: nat)

  predicate Readable(f: Reader)
  {
    f.pos <= |f.content|
  }

  /** The sizes `read` accepts: -1 for "everything left", or a count. */
  predicate ReadSizeAccepted(n: int)
  {
    n >= -1
  }

  /** How many bytes an accepted `read(n)` returns when `remaining` are left. */
  function ReadSize(n: int, remaining: nat): (k: nat)
    requires ReadSizeAccepted(n)
    ensures k <= remaining
    ensures n > 0 ==> k == if n < remaining then n else remaining
    ensures n == -1 ==> k == remaining
    ensures n == 0 ==> k == 0
  {
    if n == -1 then remaining else if n < remaining then n else remaining
  }

  /** An accepted `f.read(n)`: the reader after the call and the bytes
      returned. */
  function Take(f: Reader, n: int): (r: (Reader, Bytes))
    requires Readable(f) && ReadSizeAccepted(n)
    ensures Readable(r.0) && r.0.content == f.content && r.0.closes == f.closes
    ensures r.0.pos == f.pos + |r.1|
    ensures r.1 == f.content[f.pos..r.0.pos]
    ensures |r.1| == ReadSize(n, |f.content| - f.pos)
  {
    var k := ReadSize(n, |f.content| - f.pos);
    (f.(pos := f.pos + k), f.content[f.pos..f.pos + k])
  }

  /** `f.read(n)`: `None` for the ValueError a size below -1 raises. */
  function Read(f: Reader, n: int): (r: Option<(Reader, Bytes)>)
    requires Readable(f)
    ensures r.None? <==> !ReadSizeAccepted(n)
    ensures r.Some? ==> r.value == Take(f, n)
  {
    if ReadSizeAccepted(n) then Some(Take(f, n)) else None
  }

  function Close(f: Reader): Reader
  {
    f.(closes := f.closes + 1)
  }

  /** The blocks `_iter_and_close(file, blockSize)` yields for a file holding
      `content` before it stops or raises; with a size below -1 the first
      read raises and nothing is yielded. */
  function Blocks(content: Bytes, blockSize: int): (r: seq<Bytes>)
    ensures ReadSizeAccepted(blockSize) && blockSize != 0 ==> Concat(r) == content
    ensures !ReadSizeAccepted(blockSize) || blockSize == 0 || content == [] <==> r == []
    ensures blockSize == -1 && content != [] ==> r == [content]
    decreases |content|
  {
    if !ReadSizeAccepted(blockSize) || blockSize == 0 || |content| == 0 then []
    else if blockSize == -1 || |content| <= blockSize then [content]
    else
      var rest := Blocks(content[blockSize..], blockSize);
      assert content == content[..blockSize] + content[blockSize..];
      [content[..blockSize]] + rest
  }

  /** Every block is non-empty; for a positive size each holds at most
      `blockSize` bytes, and all but the last exactly `blockSize`. */
  predicate WellSized(r: seq<Bytes>, blockSize: int)
  {
    (forall i :: 0 <= i < |r| ==> |r[i]| > 0) &&
    (blockSize > 0 ==> forall i :: 0 <= i < |r| ==> |r[i]| <= blockSize) &&
    (blockSize > 0 ==> forall i :: 0 <= i < |r| - 1 ==> |r[i]| == blockSize)
  }

  /** The blocks a reader yields are well sized. */
  lemma {:induction false} BlockSizes(content: Bytes, blockSize: int)
    ensures WellSized(Blocks(content, blockSize), blockSize)
    decreases |content|
  {
    var r := Blocks(content, blockSize);
    if ReadSizeAccepted(blockSize) && blockSize > 0 && |content| > blockSize {
      var rest := Blocks(content[blockSize..], blockSize);
      BlockSizes(content[blockSize..], blockSize);
      assert r == [content[..blockSize]] + rest;
      assert |r| == |rest| + 1 && |r[0]| == blockSize;
      forall i | 0 <= i < |r|
        ensures |r[i]| > 0 && |r[i]| <= blockSize && (i < |r| - 1 ==> |r[i]| == blockSize)
      {
        if i > 0 {
          assert r[i] == rest[i - 1];
        }
      }
    }
  }

  /** A non-empty read takes the first block off what is left. */
  lemma BlocksStep(content: Bytes, pos: nat, blockSize: int)
    requires pos < |content| && blockSize != 0 && ReadSizeAccepted(blockSize)
    ensures var k := ReadSize(blockSize, |content| - pos);
      k > 0 && Blocks(content[pos..], blockSize) == [content[pos..pos + k]] + Blocks(content[pos + k..], blockSize)
  {
    var rest := content[pos..];
    var k := ReadSize(blockSize, |content| - pos);
    assert rest[..k] == content[pos..pos + k];
    assert rest[k..] == content[pos + k..];
    if blockSize == -1 || |rest| <= blockSize {
      assert k == |rest|;
      assert rest[..k] == rest;
    }
  }

  /** A non-empty read moves one block from what is left to what was yielded. */
  lemma YieldKeeps(content: Bytes, chunks: seq<Bytes>, pos: nat, blockSize: int)
    requires pos <= |content| && ReadSizeAccepted(blockSize)
    requires chunks + Blocks(content[pos..], blockSize) == Blocks(content, blockSize)
    requires ReadSize(blockSize, |content| - pos) > 0
    ensures var k := ReadSize(blockSize, |content| - pos);
      chunks + [content[pos..pos + k]] + Blocks(content[pos + k..], blockSize) == Blocks(content, blockSize)
  {
    var k := ReadSize(blockSize, |content| - pos);
    BlocksStep(content, pos, blockSize);
    Regroup(chunks, [content[pos..pos + k]], Blocks(content[pos + k..], blockSize));
  }

  /** `YieldKeeps` for the reader the loop holds. */
  lemma TakeKeeps(chunks: seq<Bytes>, f: Reader, blockSize: int)
    requires Readable(f) && ReadSizeAccepted(blockSize)
    requires chunks + Blocks(f.content[f.pos..], blockSize) == Blocks(f.content, blockSize)
    requires |Take(f, blockSize).1| > 0
    ensures var step := Take(f, blockSize);
      chunks + [step.1] + Blocks(f.content[step.0.pos..], blockSize) == Blocks(f.content, blockSize)
  {
    YieldKeeps(f.content, chunks, f.pos, blockSize);
  }

  lemma Regroup(a: seq<Bytes>, b: seq<Bytes>, c: seq<Bytes>)
    ensures a + b + c == a + (b + c)
  {
  }

  /** An empty read means nothing is left to yield. */
  lemma EmptyReadEnds(content: Bytes, pos: nat, blockSize: int)
    requires pos <= |content| && ReadSizeAccepted(blockSize)
    requires ReadSize(blockSize, |content| - pos) == 0
    ensures Blocks(content[pos..], blockSize) == []
    ensures blockSize != 0 ==> pos == |content|
  {
  }

  /** `_iter_and_close`. `raised` reports the ValueError that escapes the
      generator at its first read, leaving the file open. */
  method IterAndClose(content: Bytes, blockSize: int) returns (chunks: seq<Bytes>, f: Reader, raised: bool)
    ensures chunks == Blocks(content, blockSize)
    ensures raised <==> !ReadSizeAccepted(blockSize)
    ensures raised ==> chunks == [] && f.closes == 0 && f.pos == 0
    ensures !raised && blockSize != 0 ==> Concat(chunks) == content
    ensures f.content == content
    ensures !raised ==> f.closes == 1
    ensures !raised && blockSize != 0 ==> f.pos == |content|
  {
    f := Reader(content, 0, 0);
    if Read(f, blockSize).None? {
      chunks, raised := [], true;
    } else {
      chunks, f := ReadLoop(content, blockSize);
      raised := false;
    }
  }

  /** The read loop of `_iter_and_close` for a size `read` accepts (every
      `read` is then a `Take`): yield each non-empty block, close the file
      at the first empty read. */
  method ReadLoop(content: Bytes, blockSize: int) returns (chunks: seq<Bytes>, f: Reader)
    requires ReadSizeAccepted(blockSize)
    ensures chunks == Blocks(content, blockSize)
    ensures blockSize != 0 ==> Concat(chunks) == content
    ensures f.content == content && f.closes == 1
    ensures blockSize != 0 ==> f.pos == |content|
  {
    f := Reader(content, 0, 0);
    chunks := [];
    var step := Take(f, blockSize);
    while |step.1| > 0
      invariant Readable(f) && f.content == content && f.closes == 0
      invariant step == Take(f, blockSize)
      invariant chunks + Blocks(content[f.pos..], blockSize) == Blocks(content, blockSize)
      decreases |content| - f.pos
    {
      TakeKeeps(chunks, f, blockSize);
      chunks := chunks + [step.1];
      f := step.0;
      step := Take(f, blockSize);
    }
    EmptyReadEnds(content, f.pos, blockSize);
    f := Close(step.0);
  }
}

=== FILE: common.dfy ===
/** Small shared vocabulary: an option type, bytes, and the few string
    predicates Python's `str` methods provide (`startswith`, `endswith`, `in`). */
module Common {

  datatype Option<T> = None | Some(value: T)

  newtype byte = x: int | 0 <= x < 256

  type Bytes = seq<byte>

  /** Python's `s.startswith(prefix)`. */
  predicate StartsWith(s: string, prefix: string)
  {
    |prefix| <= |s| && s[..|prefix|] == prefix
  }

  /** Python's `s.endswith(suffix)`. */
  predicate EndsWith(s: string, suffix: string)
  {
    |suffix| <= |s| && s[|s| - |suffix|..] == suffix
  }

  /** Python's substring test `sub in s`. */
  predicate Contains(s: string, sub: string)
    decreases |s|
  {
    StartsWith(s, sub) || (|s| > 0 && Contains(s[1..], sub))
  }

  /** Whatever surrounds it, a string contains itself. */
  lemma {:induction false} ContainsInfix(a: string, sub: string, b: string)
    ensures Contains(a + sub + b, sub)
    decreases |a|
  {
    if |a| == 0 {
      assert a + sub + b == sub + b;
      assert (sub + b)[..|sub|] == sub;
    } else {
      ContainsInfix(a[1..], sub, b);
      assert (a + sub + b)[1..] == a[1..] + sub + b;
    }
  }

  /** `sub` sits in `s` from position `i` on. */
  predicate OccursAt(s: string, sub: string, i: nat)
  {
    i + |sub| <= |s| && s[i..i + |sub|] == sub
  }

  /** Conversely, a string that contains `sub` has it at some position. */
  lemma {:induction false} ContainsAt(s: string, sub: string) returns (i: nat)
    requires Contains(s, sub)
    ensures OccursAt(s, sub, i)
    decreases |s|
  {
    if StartsWith(s, sub) {
      i := 0;
    } else {
      var j := ContainsAt(s[1..], sub);
      assert s[1..][j..j + |sub|] == s[j + 1..j + 1 + |sub|];
      i := j + 1;
    }
  }

  /** The bytes of a list of chunks laid end to end (`b"".join(chunks)`). */
  function Concat(chunks: seq<Bytes>): Bytes
  {
    if |chunks| == 0 then [] else chunks[0] + Concat(chunks[1..])
  }
}

=== FILE: conditional.dfy ===
/** The conditional-request test of `Cling.__call__`, the handler's reading of
    If-Modified-Since and If-None-Match (sections 3.3 and 3.2 of RFC 7232).
    If-Modified-Since is looked at first and wins; an empty or absent header
    is skipped. The handler compares dates with `>=` and looks for the entity
    tag as a substring of If-None-Match, which is looser than the RFC's
    comparison of quoted tags. */
module Conditional {
  import opened Common

  datatype Verdict =
    | ModifiedSinceHit   // If-Modified-Since is not earlier than Last-Modified
    | NoneMatchHit       // If-None-Match is `*` or holds the entity tag
    | Proceed            // the full response is needed

  function Evaluate(ifModifiedSince: string, ifNoneMatch: string, etag: string,
                    lastModified: string, parseDate: string -> int): (v: Verdict)
    ensures v == ModifiedSinceHit <==>
              ifModifiedSince != "" && parseDate(ifModifiedSince) >= parseDate(lastModified)
    ensures v == NoneMatchHit ==>
              ifNoneMatch != "" && (ifNoneMatch == "*" || Contains(ifNoneMatch, etag))
    ensures v == Proceed <==>
              !(ifModifiedSince != "" && parseDate(ifModifiedSince) >= parseDate(lastModified)) &&
              !(ifNoneMatch != "" && (ifNoneMatch == "*" || Contains(ifNoneMatch, etag)))
  {
    if ifModifiedSince != "" && parseDate(ifModifiedSince) >= parseDate(lastModified) then ModifiedSinceHit
    else if ifNoneMatch != "" && (ifNoneMatch == "*" || Contains(ifNoneMatch, etag)) then NoneMatchHit
    else Proceed
  }

  /** A client that sends back the entity tag it was given, alone or inside a
      longer list, is told the resource is unchanged. */
  lemma EchoedTagNotModified(ifNoneMatch: string, before: string, etag: string, after: string,
                             lastModified: string, parseDate: string -> int)
    requires ifNoneMatch == before + etag + after && ifNoneMatch != ""
    ensures Evaluate("", ifNoneMatch, etag, lastModified, parseDate) == NoneMatchHit
  {
    ContainsInfix(before, etag, after);
  }

  /** Without a date hit, an If-None-Match other than `*` in which the entity
      tag occurs nowhere lets the full response through. */
  lemma AbsentTagProceeds(ifModifiedSince: string, ifNoneMatch: string, etag: string,
                          lastModified: string, parseDate: string -> int)
    requires !(ifModifiedSince != "" && parseDate(ifModifiedSince) >= parseDate(lastModified))
    requires ifNoneMatch != "*"
    requires forall i: nat :: !OccursAt(ifNoneMatch, etag, i)
    ensures Evaluate(ifModifiedSince, ifNoneMatch, etag, lastModified, parseDate) == Proceed
  {
    if Contains(ifNoneMatch, etag) {
      var i := ContainsAt(ifNoneMatch, etag);
      assert false;
    }
  }

  /** A date hit decides the request whatever If-None-Match says. */
  lemma DateDecidesFirst(ifModifiedSince: string, inm1: string, inm2: string, etag: string,
                         lastModified: string, parseDate: string -> int)
    requires ifModifiedSince != "" && parseDate(ifModifiedSince) >= parseDate(lastModified)
    ensures Evaluate(ifModifiedSince, inm1, etag, lastModified, parseDate)
         == Evaluate(ifModifiedSince, inm2, etag, lastModified, parseDate)
         == ModifiedSinceHit
  {
  }

  /** The substring test accepts a tag that is only part of another one:
      entity tag `1.5` is "matched" by If-None-Match `11.55`. */
  lemma SubstringTagMatches(lastModified: string, parseDate: string -> int)
    ensures Evaluate("", "11.55", "1.5", lastModified, parseDate) == NoneMatchHit
  {
    assert "11.55" == "1" + "1.5" + "5";
    ContainsInfix("1", "1.5", "5");
  }
}

=== FILE: files.dfy ===
/** The filesystem as the handler sees it through `os.stat`, `os.path.exists`,
    `os.path.isdir` and `open(path, 'rb')`: a map from canonical absolute
    component lists to files and directories. Symbolic links are not modelled;
    a name is looked up by its lexically normalised components. */
module Files {
  import opened Common
  import opened Paths

  datatype Node = File(content: Bytes, mtime: int) | Dir(mtime: int)

  type FileSystem = map<seq<string>, Node>

  /** A path whose last piece is empty, `.` or `..` can only name a directory:
      the kernel answers ENOTDIR for `static.html/`. */
  predicate NamesDirectoryOnly(p: string)
  {
    var last := LastPiece(p);
    last == "" || last == "." || last == ".."
  }

  /** A path with a NUL character cannot be handed to the kernel: `os.stat`
      and `open` raise ValueError for it (an exception the handler does not
      catch), while `os.path.exists` and `os.path.isdir` answer False. */
  predicate EmbeddedNul(p: string)
  {
    '\0' in p
  }

  /** `os.stat(p)`: `None` stands for the OSError it raises, and for the
      ValueError of a path with a NUL character, which the handler tells
      apart with `EmbeddedNul`. The empty path does not exist. */
  function Stat(fs: FileSystem, cwd: seq<string>, p: string): (r: Option<Node>)
    requires ValidSegments(cwd)
    ensures r.Some? ==> p != "" && !EmbeddedNul(p) && Canon(cwd, p).segs in fs && r.value == fs[Canon(cwd, p).segs]
    ensures r.Some? && r.value.File? ==> !NamesDirectoryOnly(p)
    ensures r.None? && p != "" && !EmbeddedNul(p) && Canon(cwd, p).segs in fs ==>
              fs[Canon(cwd, p).segs].File? && NamesDirectoryOnly(p)
  {
    if p == "" || EmbeddedNul(p) then None
    else
      var key := Canon(cwd, p).segs;
      if key !in fs then None
      else if fs[key].File? && NamesDirectoryOnly(p) then None
      else Some(fs[key])
  }

  /** `os.path.exists(p)`; False for a path with a NUL character. */
  predicate Exists(fs: FileSystem, cwd: seq<string>, p: string)
    requires ValidSegments(cwd)
  {
    Stat(fs, cwd, p).Some?
  }

  /** `os.path.isdir(p)`; False for a path with a NUL character. */
  predicate IsDir(fs: FileSystem, cwd: seq<string>, p: string)
    requires ValidSegments(cwd)
  {
    Stat(fs, cwd, p).Some? && Stat(fs, cwd, p).value.Dir?
  }

  /** A path exists exactly when it is non-empty, has no NUL character, and
      its canonical form names a directory, or a file under a name that does
      not end in `/`, `.` or `..`. */
  lemma ExistsMeans(fs: FileSystem, cwd: seq<string>, p: string)
    requires ValidSegments(cwd)
    ensures Exists(fs, cwd, p) <==>
              p != "" && !EmbeddedNul(p) && Canon(cwd, p).segs in fs &&
              (fs[Canon(cwd, p).segs].Dir? || !NamesDirectoryOnly(p))
  {
  }

  /** A path is a directory exactly when it is non-empty, has no NUL
      character, and its canonical form names a directory, whatever its last
      piece; every directory exists. */
  lemma IsDirMeans(fs: FileSystem, cwd: seq<string>, p: string)
    requires ValidSegments(cwd)
    ensures IsDir(fs, cwd, p) <==>
              p != "" && !EmbeddedNul(p) && Canon(cwd, p).segs in fs && fs[Canon(cwd, p).segs].Dir?
    ensures IsDir(fs, cwd, p) ==> Exists(fs, cwd, p)
  {
  }

  /** `open(p, 'rb').read()`: the bytes of a regular file; opening a directory
      or a missing name raises (IsADirectoryError, FileNotFoundError), and so
      does a path with a NUL character (ValueError). */
  function Open(fs: FileSystem, cwd: seq<string>, p: string): (r: Option<Bytes>)
    requires ValidSegments(cwd)
    ensures r.Some? <==> Exists(fs, cwd, p) && !IsDir(fs, cwd, p)
    ensures r.Some? ==> r.value == Stat(fs, cwd, p).value.content
    ensures EmbeddedNul(p) ==> r.None?
  {
    match Stat(fs, cwd, p)
    case Some(File(content, _)) => Some(content)
    case _ => None
  }
}

=== FILE: host.dfy ===
/** What the handler takes from its host and from Python's library without
    this model looking inside: the mimetypes table, `email.utils`
    date formatting and parsing, the text of numbers, `wsgiref.util.request_uri`
    and the two template engines. */
module Host {
  import opened Common

  datatype Platform = Platform(
    /** `mimetypes.guess_type(p)[0]`. */
    guessType: string -> Option<string>,
    /** `email.utils.formatdate(t)`. */
    formatDate: int -> string,
    /** `email.utils.parsedate(s)`, compared as a point in time; every date
        the handler compares is assumed to parse. */
    parseDate: string -> int,
    /** `str(st_mtime)`, the text of a modification time. */
    mtimeText: int -> string,
    /** `str(int(t))`. */
    intText: int -> string,
    /** `wsgiref.util.request_uri(environ, include_query=False)`. */
    requestUri: map<string, string> -> string,
    /** `string.Template(src.decode('utf-8')).safe_substitute(vars)`, encoded
        back to UTF-8; `None` when decoding raises. */
    substitute: (map<string, string>, Bytes) -> Option<Bytes>,
    /** `pystache.Renderer().render(src, environ=environ, **variables)`,
        encoded; `None` when rendering raises. */
    moustache: (map<string, string>, map<string, string>, Bytes) -> Option<Bytes>
  )

  /** `mimetypes.guess_type(p)[0] or 'text/plain'`. */
  function ContentType(plat: Platform, p: string): (t: string)
    ensures t != ""
    ensures plat.guessType(p).None? ==> t == "text/plain"
    ensures plat.guessType(p).Some? && plat.guessType(p).value != "" ==> t == plat.guessType(p).value
  {
    match plat.guessType(p)
    case Some(t) => if t != "" then t else "text/plain"
    case None => "text/plain"
  }

  /** Formatting then parsing a date gives the same instant back. */
  ghost predicate DatesRoundTrip(plat: Platform)
  {
    forall t :: plat.parseDate(plat.formatDate(t)) == t
  }
}

=== FILE: magics.dfy ===
/** The "magic" extension mechanism of `Shock`: a magic owns a file-name
    extension, finds a template by appending it, recognises templated paths by
    it, and renders the template's bytes into the response body. Magics are
    consulted in registration order and the first that applies wins. */
module Magics {
  import opened Common
  import opened Paths
  import opened Files
  import opened Host

  /** `StringMagic` (`string.Template`) or `MoustacheMagic` (pystache). */
  datatype Kind = StringTemplate | Moustache

  datatype Magic = Magic(kind: Kind, extension: string, variables: map<string, string>)

  function DefaultExtension(kind: Kind): string
  {
    match kind
    case StringTemplate => ".stp"
    case Moustache => ".mst"
  }

  /** `StringMagic(extension, variables)` / `MoustacheMagic(...)`: a missing
      or empty extension falls back to the class default, missing variables
      to `{}` (the empty map here). */
  function NewMagic(kind: Kind, extension: string, variables: map<string, string>): (m: Magic)
    ensures m.kind == kind && m.variables == variables
    ensures m.extension != ""
    ensures extension != "" ==> m.extension == extension
    ensures extension == "" ==> m.extension == DefaultExtension(kind)
  {
    Magic(kind, if extension != "" then extension else DefaultExtension(kind), variables)
  }

  /** `BaseMagic.new_path`: `full_path + self.extension`. */
  function NewPath(m: Magic, p: string): (r: string)
    ensures |r| == |p| + |m.extension|
    ensures StartsWith(r, p) && EndsWith(r, m.extension)
  {
    p + m.extension
  }

  /** `BaseMagic.old_path`: `full_path[:-len(self.extension)]`. Python's
      slice `[:-0]` is empty, and a negative end beyond the start clamps to 0. */
  function OldPath(m: Magic, p: string): (r: string)
    ensures |r| <= |p| && r == p[..|r|]
    ensures m.extension == "" ==> r == ""
  {
    var n := |m.extension|;
    if n == 0 then "" else if n >= |p| then "" else p[..|p| - n]
  }

  /** `BaseMagic.matches`: it returns the path when it ends with the extension,
      and the caller tests that value for truth, so the empty path never
      matches, and an empty extension matches every other path. */
  predicate Matches(m: Magic, p: string): (b: bool)
    ensures b ==> p != "" && |m.extension| <= |p|
    ensures m.extension == "" ==> (b <==> p != "")
    ensures b && m.extension != "" ==> p[..|p| - |m.extension|] + m.extension == p
  {
    EndsWith(p, m.extension) && p != ""
  }

  /** Appending the extension and taking it off again gives the path back,
      and the appended path is recognised as this magic's. */
  lemma NewPathRoundTrip(m: Magic, p: string)
    requires m.extension != ""
    ensures OldPath(m, NewPath(m, p)) == p
    ensures Matches(m, NewPath(m, p))
  {
    var q := NewPath(m, p);
    assert q[..|p|] == p;
    assert q[|q| - |m.extension|..] == m.extension;
  }

  /** A path the magic matches is the augmented form of its stripped path. */
  lemma OldPathRoundTrip(m: Magic, p: string)
    requires m.extension != "" && Matches(m, p)
    ensures NewPath(m, OldPath(m, p)) == p
  {
    var n := |m.extension|;
    if n < |p| {
      assert p == p[..|p| - n] + p[|p| - n..];
    } else {
      assert p == m.extension;
    }
  }

  /** `BaseMagic.exists`: the augmented path when a file or directory has that
      name. */
  function ExistsAugmented(m: Magic, fs: FileSystem, cwd: seq<string>, p: string): (r: Option<string>)
    requires ValidSegments(cwd)
    ensures r.Some? <==> Exists(fs, cwd, NewPath(m, p))
    ensures r.Some? ==> r.value == NewPath(m, p)
  {
    if Exists(fs, cwd, NewPath(m, p)) then Some(NewPath(m, p)) else None
  }

  /** The position of the first magic, in registration order, that passes
      `test`. */
  function FirstWhere(magics: seq<Magic>, test: Magic -> bool): (r: Option<nat>)
    ensures r.Some? ==> r.value < |magics| && test(magics[r.value])
    ensures r.Some? ==> forall j :: 0 <= j < r.value ==> !test(magics[j])
    ensures r.None? ==> forall j :: 0 <= j < |magics| ==> !test(magics[j])
    decreases |magics|
  {
    if |magics| == 0 then None
    else if test(magics[0]) then Some(0)
    else
      match FirstWhere(magics[1..], test)
      case None => None
      case Some(k) => Some(k + 1)
  }

  /** Position of the magic `Shock._match_magic` returns. */
  function MatchIndex(magics: seq<Magic>, p: string): Option<nat>
  {
    FirstWhere(magics, m => Matches(m, p))
  }

  /** `Shock._match_magic`: the first magic whose extension ends the path. */
  function MatchMagic(magics: seq<Magic>, p: string): (r: Option<Magic>)
    ensures r.Some? ==> Matches(r.value, p) && r.value in magics
    ensures r.None? ==> forall m :: m in magics ==> !Matches(m, p)
    ensures r.Some? ==> exists k :: 0 <= k < |magics| && r.value == magics[k] && Matches(magics[k], p) &&
                          forall j :: 0 <= j < k ==> !Matches(magics[j], p)
  {
    match MatchIndex(magics, p)
    case Some(k) => Some(magics[k])
    case None => None
  }

  /** Two magics registered for the same extension: the later one is never
      chosen. */
  lemma EarlierRegistrationWins(magics: seq<Magic>, p: string, i: nat, j: nat)
    requires i < j < |magics|
    requires magics[i].extension == magics[j].extension
    ensures MatchIndex(magics, p) != Some(j)
  {
    assert Matches(magics[i], p) == Matches(magics[j], p);
  }

  /** `Shock._full_path`: the literal path when it exists, otherwise the
      augmented path of the first magic whose augmented file exists,
      otherwise the literal path. */
  function ResolveFullPath(root: string, magics: seq<Magic>, fs: FileSystem, cwd: seq<string>, pathInfo: string): (r: string)
    requires ValidSegments(cwd)
    ensures var full := root + pathInfo;
      r == full || exists k :: 0 <= k < |magics| && r == NewPath(magics[k], full)
    ensures Exists(fs, cwd, root + pathInfo) ==> r == root + pathInfo
    ensures (forall k :: 0 <= k < |magics| ==> !Exists(fs, cwd, NewPath(magics[k], root + pathInfo))) ==>
              r == root + pathInfo
  {
    var full := root + pathInfo;
    if Exists(fs, cwd, full) then full
    else
      match FirstWhere(magics, m => ExistsAugmented(m, fs, cwd, full).Some?)
      case Some(k) => NewPath(magics[k], full)
      case None => full
  }

  /** Without magics `Shock._full_path` is `Cling._full_path`:
      `self.root + path_info`. */
  lemma NoMagicsLiteralPath(root: string, fs: FileSystem, cwd: seq<string>, pathInfo: string)
    requires ValidSegments(cwd)
    ensures ResolveFullPath(root, [], fs, cwd, pathInfo) == root + pathInfo
  {
  }

  /** A missing literal path is replaced by the first magic's existing
      augmented path, and only when one exists. */
  lemma MissingPathUsesFirstTemplate(root: string, magics: seq<Magic>, fs: FileSystem, cwd: seq<string>, pathInfo: string, k: nat)
    requires ValidSegments(cwd)
    requires !Exists(fs, cwd, root + pathInfo)
    requires k < |magics| && Exists(fs, cwd, NewPath(magics[k], root + pathInfo))
    requires forall j :: 0 <= j < k ==> !Exists(fs, cwd, NewPath(magics[j], root + pathInfo))
    ensures ResolveFullPath(root, magics, fs, cwd, pathInfo) == NewPath(magics[k], root + pathInfo)
  {
    var full := root + pathInfo;
    var test := (m: Magic) => ExistsAugmented(m, fs, cwd, full).Some?;
    forall j | 0 <= j < k
      ensures !test(magics[j])
    {
    }
    assert test(magics[k]);
    var r := FirstWhere(magics, test);
    assert r.Some? && r.value == k;
  }

  /** `Shock._guess_type`: for a path a magic matches, the type of the path with
      the extension taken off; otherwise the type of the path itself. */
  function GuessType(magics: seq<Magic>, plat: Platform, p: string): (t: string)
    ensures t != ""
    ensures MatchMagic(magics, p).Some? ==> t == ContentType(plat, OldPath(MatchMagic(magics, p).value, p))
    ensures MatchMagic(magics, p).None? ==> t == ContentType(plat, p)
  {
    match MatchMagic(magics, p)
    case Some(m) => ContentType(plat, OldPath(m, p))
    case None => ContentType(plat, p)
  }

  /** A template requested by its bare name is typed by that bare name. */
  lemma AugmentedTypedByBareName(magics: seq<Magic>, plat: Platform, p: string, k: nat)
    requires k < |magics| && magics[k].extension != ""
    requires MatchIndex(magics, NewPath(magics[k], p)) == Some(k)
    ensures GuessType(magics, plat, NewPath(magics[k], p)) == ContentType(plat, p)
  {
    NewPathRoundTrip(magics[k], p);
  }

  /** `StringMagic.body`'s variables: a copy of `environ` updated with the
      magic's own variables, so an explicit variable always wins. */
  function MergeVariables(environ: map<string, string>, variables: map<string, string>): (r: map<string, string>)
    ensures r.Keys == environ.Keys + variables.Keys
    ensures forall k :: k in variables ==> r[k] == variables[k]
    ensures forall k :: k in environ && k !in variables ==> r[k] == environ[k]
  {
    environ + variables
  }

  /** What `StringMagic.body`'s docstring promises: with the magic's own
      variables in place, whatever else the request's environ holds cannot
      change them. Two environs that differ only on keys the magic sets
      render a string template alike. */
  lemma ExplicitVariablesShieldEnviron(m: Magic, plat: Platform, environ1: map<string, string>,
                                       environ2: map<string, string>, source: Bytes)
    requires m.kind == StringTemplate
    requires forall k :: k !in m.variables ==> (k in environ1 <==> k in environ2)
    requires forall k :: k in environ1 && k !in m.variables ==> environ1[k] == environ2[k]
    ensures RenderBody(m, plat, environ1, source) == RenderBody(m, plat, environ2, source)
  {
    var v1, v2 := MergeVariables(environ1, m.variables), MergeVariables(environ2, m.variables);
    assert v1.Keys == v2.Keys;
    assert forall k :: k in v1 ==> v1[k] == v2[k];
    assert v1 == v2;
  }

  /** `BaseMagic.conditions`: both validators come from the current time, so a
      templated response never reuses a stale validator of its source. */
  function MagicValidators(plat: Platform, now: int): (r: (string, string))
    ensures DatesRoundTrip(plat) ==> plat.parseDate(r.1) == now
    ensures r.0 == plat.intText(now)
  {
    (plat.intText(now), plat.formatDate(now))
  }

  /** The body a magic renders from its template's bytes: one chunk, or `None`
      when the template engine raises. */
  function RenderBody(m: Magic, plat: Platform, environ: map<string, string>, source: Bytes): Option<Bytes>
  {
    match m.kind
    case StringTemplate => plat.substitute(MergeVariables(environ, m.variables), source)
    case Moustache => plat.moustache(environ, m.variables, source)
  }
}

=== FILE: paths.dfy ===
/** Path normalisation and the containment guard.

    `Canon` is `os.path.abspath` on POSIX: a relative path is joined to the
    working directory, then `normpath` drops empty and `.` components,
    lets `..` remove the previous component (or vanish at the top), and keeps
    a leading `//` exactly when the path starts with two slashes but not three.
    The guard `IsUnderRoot` is the string test of `Cling._is_under_root`;
    `ContainmentBySegments` characterises it by the canonical segment lists. */
module Paths {
  import opened Common

  /** Python's `p.split('/')`: always at least one piece, none holding '/'. */
  function Split(p: string): (r: seq<string>)
    ensures |r| >= 1
    ensures NoSlashes(r)
    decreases |p|
  {
    if |p| == 0 then [""]
    else
      var rest := Split(p[1..]);
      if p[0] == '/' then [""] + rest
      else [[p[0]] + rest[0]] + rest[1..]
  }

  /** Joining the pieces of a split gives the text back. */
  lemma {:induction false} JoinSplit(p: string)
    ensures Join(Split(p)) == p
    decreases |p|
  {
    if |p| > 0 {
      var rest := Split(p[1..]);
      JoinSplit(p[1..]);
      assert p == [p[0]] + p[1..];
      if p[0] == '/' {
        assert ([""] + rest)[1..] == rest;
      } else {
        var r := [[p[0]] + rest[0]] + rest[1..];
        assert r[1..] == rest[1..];
        if |rest| > 1 {
          assert Join(rest) == rest[0] + "/" + Join(rest[1..]);
        }
      }
    }
  }

  /** Python's `'/'.join(segs)`. */
  function Join(segs: seq<string>): string
  {
    if |segs| == 0 then ""
    else if |segs| == 1 then segs[0]
    else segs[0] + "/" + Join(segs[1..])
  }

  /** A component that survives normalisation: a proper file name. */
  predicate ValidSegment(s: string)
  {
    s != "" && s != "." && s != ".." && '/' !in s
  }

  predicate ValidSegments(segs: seq<string>)
  {
    forall i :: 0 <= i < |segs| ==> ValidSegment(segs[i])
  }

  predicate NoSlashes(comps: seq<string>)
  {
    forall i :: 0 <= i < |comps| ==> '/' !in comps[i]
  }

  /** The component loop of `normpath` for an absolute path: `stack` holds
      the components kept so far. */
  function Resolve(stack: seq<string>, comps: seq<string>): (r: seq<string>)
    requires ValidSegments(stack)
    requires NoSlashes(comps)
    ensures ValidSegments(r)
    decreases |comps|
  {
    if |comps| == 0 then stack
    else
      var c := comps[0];
      var next :=
        if c == "" || c == "." then stack
        else if c == ".." then (if |stack| == 0 then stack else stack[..|stack| - 1])
        else stack + [c];
      Resolve(next, comps[1..])
  }

  /** A normalised absolute path: its number of leading slashes and its
      components. */
  datatype Canonical = Canonical(lead: nat, segs: seq<string>)

  /** `normpath` keeps two leading slashes only for exactly two. */
  function LeadingSlashes(p: string): nat
  {
    if StartsWith(p, "//") && !StartsWith(p, "///") then 2 else 1
  }

  /** `os.path.abspath(p)` with working directory `cwd`, as segments. */
  function Canon(cwd: seq<string>, p: string): (c: Canonical)
    requires ValidSegments(cwd)
    ensures c.lead == 1 || c.lead == 2
    ensures ValidSegments(c.segs)
  {
    if StartsWith(p, "/") then Canonical(LeadingSlashes(p), Resolve([], Split(p)))
    else Canonical(1, Resolve(cwd, Split(p)))
  }

  function Render(c: Canonical): string
  {
    LeadText(c) + Join(c.segs)
  }

  /** `os.path.abspath(p)`. */
  function AbsPath(cwd: seq<string>, p: string): string
    requires ValidSegments(cwd)
  {
    Render(Canon(cwd, p))
  }

  /** `Cling._is_under_root`: `abspath(full) + sep` starts with
      `abspath(root) + sep`. */
  predicate IsUnderRoot(cwd: seq<string>, root: string, full: string)
    requires ValidSegments(cwd)
  {
    StartsWith(AbsPath(cwd, full) + "/", AbsPath(cwd, root) + "/")
  }

  /** Containment stated on segments: with the same leading slashes, the root's
      components are a prefix of the candidate's (a root with no components
      only contains itself, since `'/' + '/'` is `//`); a single-slash root
      with no components also contains every double-slash path. */
  predicate SegmentsUnder(r: Canonical, d: Canonical)
  {
    if r.lead == d.lead then r.segs <= d.segs && (r.segs == [] ==> d.segs == [])
    else r.lead == 1 && d.lead == 2 && r.segs == []
  }

  // ---------------------------------------------------------------------
  // Proof of the containment characterisation

  /** `Join(s) + "/"` for a non-empty list, built one component at a time. */
  function Terminated(segs: seq<string>): string
  {
    if |segs| == 0 then "" else segs[0] + "/" + Terminated(segs[1..])
  }

  lemma {:induction false} JoinTerminated(segs: seq<string>)
    requires |segs| > 0
    ensures Join(segs) + "/" == Terminated(segs)
    decreases |segs|
  {
    if |segs| > 1 {
      JoinTerminated(segs[1..]);
    }
  }

  /** Two slash-free names followed by '/' agree when one prefixes the other. */
  lemma NameBeforeSlash(a: string, b: string, rest: string)
    requires '/' !in a && '/' !in b
    requires StartsWith(b + "/" + rest, a + "/")
    ensures a == b
  {
    var s := b + "/" + rest;
    var t := a + "/";
    assert s[..|t|] == t;
    assert s[|a|] == '/';
    assert forall i :: 0 <= i < |b| ==> s[i] == b[i] && b[i] in b;
    assert forall i :: 0 <= i < |a| ==> s[i] == a[i] && a[i] in a;
    assert s[|b|] == '/';
    assert |a| == |b|;
    assert s[..|a|] == b;
  }

  lemma {:induction false} TerminatedPrefix(r: seq<string>, d: seq<string>)
    requires ValidSegments(r) && ValidSegments(d)
    ensures StartsWith(Terminated(d), Terminated(r)) <==> r <= d
    decreases |r|
  {
    if |r| == 0 {
    } else if |d| == 0 {
    } else {
      var tr := Terminated(r[1..]);
      var td := Terminated(d[1..]);
      assert Terminated(r) == r[0] + "/" + tr;
      assert Terminated(d) == d[0] + "/" + td;
      TerminatedPrefix(r[1..], d[1..]);
      if StartsWith(Terminated(d), Terminated(r)) {
        assert StartsWith(d[0] + "/" + td, r[0] + "/") by {
          assert (r[0] + "/" + tr)[..|r[0]| + 1] == r[0] + "/";
        }
        NameBeforeSlash(r[0], d[0], td);
        var k := |r[0]| + 1;
        assert Terminated(d)[k..] == td;
        assert Terminated(r)[k..] == tr;
        assert td[..|tr|] == Terminated(d)[k..k + |tr|];
        assert StartsWith(td, tr);
        assert r == [r[0]] + r[1..] && d == [d[0]] + d[1..];
      }
      if r <= d {
        assert r[0] == d[0] && r[1..] <= d[1..];
        assert StartsWith(td, tr);
        assert Terminated(d)[..|Terminated(r)|] == r[0] + "/" + td[..|tr|];
      }
    }
  }

  /** `Join(segs) + "/"`: a lone "/" for no components, otherwise a string whose
      first character is the first character of a name. */
  lemma JoinSlashShape(segs: seq<string>)
    requires ValidSegments(segs)
    ensures segs == [] ==> Join(segs) + "/" == "/"
    ensures segs != [] ==> Join(segs) + "/" == Terminated(segs)
    ensures segs != [] ==> |Join(segs) + "/"| >= 2 && (Join(segs) + "/")[0] != '/'
  {
    if segs != [] {
      JoinTerminated(segs);
      assert ValidSegment(segs[0]);
      assert Terminated(segs) == segs[0] + "/" + Terminated(segs[1..]);
      assert segs[0][0] in segs[0];
    }
  }

  lemma PrefixCancel(l: string, x: string, y: string)
    ensures StartsWith(l + y, l + x) <==> StartsWith(y, x)
  {
    if StartsWith(y, x) {
      assert (l + y)[..|l + x|] == l + y[..|x|];
    }
    if StartsWith(l + y, l + x) {
      assert (l + y)[..|l + x|][|l|..] == y[..|x|];
      assert (l + x)[|l|..] == x;
    }
  }

  function LeadText(c: Canonical): string
  {
    if c.lead == 2 then "//" else "/"
  }

  lemma RenderSlash(c: Canonical)
    ensures Render(c) + "/" == LeadText(c) + (Join(c.segs) + "/")
  {
  }

  lemma SameLeadContainment(r: Canonical, d: Canonical)
    requires ValidSegments(r.segs) && ValidSegments(d.segs)
    requires r.lead == d.lead
    ensures StartsWith(Render(d) + "/", Render(r) + "/") <==> SegmentsUnder(r, d)
  {
    var jr := Join(r.segs) + "/";
    var jd := Join(d.segs) + "/";
    JoinSlashShape(r.segs);
    JoinSlashShape(d.segs);
    RenderSlash(r);
    RenderSlash(d);
    PrefixCancel(LeadText(r), jr, jd);
    if r.segs != [] && d.segs != [] {
      TerminatedPrefix(r.segs, d.segs);
    } else if r.segs == [] && d.segs != [] {
      assert jd[..1] != jr;
    } else if r.segs != [] && d.segs == [] {
      assert |jr| > |jd|;
    }
  }

  lemma CrossLeadContainment(r: Canonical, d: Canonical)
    requires ValidSegments(r.segs) && ValidSegments(d.segs)
    requires r.lead in {1, 2} && d.lead in {1, 2} && r.lead != d.lead
    ensures StartsWith(Render(d) + "/", Render(r) + "/") <==> SegmentsUnder(r, d)
  {
    var jr := Join(r.segs) + "/";
    var jd := Join(d.segs) + "/";
    JoinSlashShape(r.segs);
    JoinSlashShape(d.segs);
    RenderSlash(r);
    RenderSlash(d);
    if r.lead == 1 {
      PrefixCancel("/", jr, "/" + jd);
      assert LeadText(d) + jd == "/" + ("/" + jd);
      if r.segs != [] {
        assert ("/" + jd)[0] == '/';
        assert jr[0] != '/';
      } else {
        assert ("/" + jd)[..1] == "/";
      }
    } else {
      PrefixCancel("/", "/" + jr, jd);
      assert LeadText(r) + jr == "/" + ("/" + jr);
      if d.segs != [] {
        assert jd[0] != '/';
        assert ("/" + jr)[0] == '/';
      } else {
        assert |"/" + jr| > |jd|;
      }
    }
  }

  /** The string test of `_is_under_root` decides exactly segment containment. */
  lemma ContainmentBySegments(cwd: seq<string>, root: string, full: string)
    requires ValidSegments(cwd)
    ensures IsUnderRoot(cwd, root, full) <==> SegmentsUnder(Canon(cwd, root), Canon(cwd, full))
  {
    var r := Canon(cwd, root);
    var d := Canon(cwd, full);
    if r.lead == d.lead {
      SameLeadContainment(r, d);
    } else {
      CrossLeadContainment(r, d);
    }
  }

  // ---------------------------------------------------------------------
  // Algebra of Split and Resolve

  lemma {:induction false} SplitNoSlash(s: string)
    requires '/' !in s
    ensures Split(s) == [s]
    decreases |s|
  {
    if |s| > 0 {
      assert s[1..] == s[1..] && forall c :: c in s[1..] ==> c in s;
      SplitNoSlash(s[1..]);
      assert s == [s[0]] + s[1..];
    }
  }

  /** One step of `Split`. */
  lemma SplitCons(c: char, s: string)
    ensures Split([c] + s) ==
      if c == '/' then [""] + Split(s) else [[c] + Split(s)[0]] + Split(s)[1..]
  {
    assert ([c] + s)[1..] == s;
  }

  /** Splitting at a separator splits the two sides independently. */
  lemma {:induction false} SplitConcat(a: string, b: string)
    ensures Split(a + "/" + b) == Split(a) + Split(b)
    decreases |a|
  {
    if |a| == 0 {
      assert a + "/" + b == ['/'] + b;
      SplitCons('/', b);
    } else {
      var t := a[1..];
      SplitConcat(t, b);
      assert a == [a[0]] + t;
      assert a + "/" + b == [a[0]] + (t + "/" + b);
      SplitConcatStep(a[0], t, b);
    }
  }

  /** One character in front of both sides keeps the split of `t/b` the split
      of `t` followed by the split of `b`. */
  lemma SplitConcatStep(c: char, t: string, b: string)
    requires Split(t + "/" + b) == Split(t) + Split(b)
    ensures Split([c] + (t + "/" + b)) == Split([c] + t) + Split(b)
  {
    if c != '/' {
      SplitConcatName(c, t, b);
    } else {
      SplitConcatSlash(t, b);
    }
  }

  lemma SplitConcatName(c: char, t: string, b: string)
    requires c != '/'
    requires Split(t + "/" + b) == Split(t) + Split(b)
    ensures Split([c] + (t + "/" + b)) == Split([c] + t) + Split(b)
  {
    var st, sb := Split(t), Split(b);
    SplitCons(c, t + "/" + b);
    SplitCons(c, t);
    assert Split([c] + (t + "/" + b)) == [[c] + (st + sb)[0]] + (st + sb)[1..];
    assert Split([c] + t) == [[c] + st[0]] + st[1..];
    GlueFirst([c], st, sb);
  }

  lemma SplitConcatSlash(t: string, b: string)
    requires Split(t + "/" + b) == Split(t) + Split(b)
    ensures Split(['/'] + (t + "/" + b)) == Split(['/'] + t) + Split(b)
  {
    var st, sb := Split(t), Split(b);
    SplitCons('/', t + "/" + b);
    SplitCons('/', t);
    assert [""] + (st + sb) == ([""] + st) + sb;
  }

  /** Gluing text onto the first piece commutes with appending more pieces. */
  lemma GlueFirst(c: string, st: seq<string>, sb: seq<string>)
    requires |st| >= 1
    ensures var u := st + sb; [c + u[0]] + u[1..] == ([c + st[0]] + st[1..]) + sb
  {
    var u := st + sb;
    assert u[0] == st[0];
    assert u[1..] == st[1..] + sb;
  }

  /** Text without a separator glues onto the last component. */
  lemma {:induction false} SplitGlue(a: string, y: string)
    requires '/' !in y
    ensures var s := Split(a); Split(a + y) == s[..|s| - 1] + [s[|s| - 1] + y]
    decreases |a|
  {
    if |a| == 0 {
      assert a + y == y;
      SplitNoSlash(y);
    } else {
      var t := a[1..];
      SplitGlue(t, y);
      assert a == [a[0]] + t;
      assert a + y == [a[0]] + (t + y);
      SplitGlueStep(a[0], t, y);
    }
  }

  /** The pieces with `y` glued onto the last one. */
  function GlueLast(s: seq<string>, y: string): seq<string>
    requires |s| >= 1
  {
    s[..|s| - 1] + [s[|s| - 1] + y]
  }

  lemma SplitGlueStep(c: char, t: string, y: string)
    requires Split(t + y) == GlueLast(Split(t), y)
    ensures Split([c] + (t + y)) == GlueLast(Split([c] + t), y)
  {
    var st := Split(t);
    SplitCons(c, t + y);
    SplitCons(c, t);
    if c == '/' {
      GlueLastCons("", st, y);
    } else {
      GlueLastFirst([c], st, y);
    }
  }

  lemma GlueLastCons(h: string, st: seq<string>, y: string)
    requires |st| >= 1
    ensures GlueLast([h] + st, y) == [h] + GlueLast(st, y)
  {
    var s := [h] + st;
    assert s[..|s| - 1] == [h] + st[..|st| - 1];
  }

  lemma GlueLastFirst(c: string, st: seq<string>, y: string)
    requires |st| >= 1
    ensures var g := GlueLast(st, y); [c + g[0]] + g[1..] == GlueLast([c + st[0]] + st[1..], y)
  {
    var g := GlueLast(st, y);
    var m := |st|;
    if m == 1 {
      assert g == [st[0] + y];
      assert c + (st[0] + y) == c + st[0] + y;
    } else {
      var sa := [c + st[0]] + st[1..];
      assert g[0] == st[0];
      assert g[1..] == st[1..m - 1] + [st[m - 1] + y];
      assert sa[..m - 1] == [c + st[0]] + st[1..m - 1];
    }
  }

  lemma {:induction false} SplitJoin(segs: seq<string>)
    requires |segs| >= 1 && NoSlashes(segs)
    ensures Split(Join(segs)) == segs
    decreases |segs|
  {
    if |segs| == 1 {
      SplitNoSlash(segs[0]);
    } else {
      SplitJoin(segs[1..]);
      SplitConcat(segs[0], Join(segs[1..]));
      SplitNoSlash(segs[0]);
      assert segs == [segs[0]] + segs[1..];
    }
  }

  lemma {:induction false} ResolveConcat(stack: seq<string>, a: seq<string>, b: seq<string>)
    requires ValidSegments(stack) && NoSlashes(a) && NoSlashes(b)
    ensures NoSlashes(a + b)
    ensures Resolve(stack, a + b) == Resolve(Resolve(stack, a), b)
    decreases |a|
  {
    assert NoSlashes(a + b) by {
      forall i | 0 <= i < |a + b| ensures '/' !in (a + b)[i] {
        if i < |a| { assert (a + b)[i] == a[i]; } else { assert (a + b)[i] == b[i - |a|]; }
      }
    }
    if |a| == 0 {
      assert a + b == b;
    } else {
      var c := a[0];
      var next :=
        if c == "" || c == "." then stack
        else if c == ".." then (if |stack| == 0 then stack else stack[..|stack| - 1])
        else stack + [c];
      assert (a + b)[0] == c && (a + b)[1..] == a[1..] + b;
      assert Resolve(stack, a + b) == Resolve(next, a[1..] + b);
      assert Resolve(stack, a) == Resolve(next, a[1..]);
      ResolveConcat(next, a[1..], b);
    }
  }

  /** Proper names are simply pushed. */
  lemma {:induction false} ResolveNames(stack: seq<string>, comps: seq<string>)
    requires ValidSegments(stack) && ValidSegments(comps)
    ensures NoSlashes(comps)
    ensures Resolve(stack, comps) == stack + comps
    decreases |comps|
  {
    if |comps| > 0 {
      assert ValidSegment(comps[0]);
      ResolveNames(stack + [comps[0]], comps[1..]);
      assert stack + [comps[0]] + comps[1..] == stack + comps;
    }
  }

  /** Appending to a root other than "", "/" and "//" keeps the path absolute
      or relative as it was, with the same leading slashes. */
  lemma LeadPreserved(root: string, t: string)
    requires root != "" && root != "/" && root != "//"
    ensures StartsWith(root + t, "/") == StartsWith(root, "/")
    ensures LeadingSlashes(root + t) == LeadingSlashes(root)
  {
    var p := root + t;
    if |root| >= 3 {
      assert p[..3] == root[..3];
      assert p[..2] == root[..2];
      assert p[..1] == root[..1];
    } else if |root| == 2 {
      assert p[..2] == root;
      assert p[..1] == root[..1];
      assert root != "//";
      assert !StartsWith(p, "//") && !StartsWith(root, "//");
    } else {
      assert p[..1] == root;
      assert !StartsWith(p, "//") && !StartsWith(root, "//");
    }
  }

  /** The stack a path's components start from. */
  function Base(cwd: seq<string>, p: string): seq<string>
  {
    if StartsWith(p, "/") then [] else cwd
  }

  // ---------------------------------------------------------------------
  // Consequences of the guard

  /** The root itself, and the root followed by a separator, pass the guard. */
  lemma RootAccepted(cwd: seq<string>, root: string)
    requires ValidSegments(cwd)
    requires root != "" && root != "/" && root != "//"
    ensures Canon(cwd, root + "/") == Canon(cwd, root)
    ensures IsUnderRoot(cwd, root, root) && IsUnderRoot(cwd, root, root + "/")
  {
    LeadPreserved(root, "/");
    SplitConcat(root, "");
    assert root + "/" + "" == root + "/";
    var s := Split(root);
    ResolveConcat(Base(cwd, root), s, [""]);
    assert Split("") == [""];
    assert Resolve(Resolve(Base(cwd, root), s), [""]) == Resolve(Base(cwd, root), s);
    assert StartsWith(AbsPath(cwd, root) + "/", AbsPath(cwd, root) + "/");
  }

  /** A separator followed by proper names stays inside the root. */
  lemma DescendantAccepted(cwd: seq<string>, root: string, rest: string)
    requires ValidSegments(cwd)
    requires root != "" && root != "/" && root != "//"
    requires Canon(cwd, root).segs != []
    requires ValidSegments(Split(rest))
    ensures IsUnderRoot(cwd, root, root + "/" + rest)
  {
    var full := root + "/" + rest;
    assert full == root + ("/" + rest);
    LeadPreserved(root, "/" + rest);
    SplitConcat(root, rest);
    var base := Base(cwd, root);
    var R := Resolve(base, Split(root));
    ResolveConcat(base, Split(root), Split(rest));
    ResolveNames(R, Split(rest));
    var r := Canon(cwd, root);
    var d := Canon(cwd, full);
    assert r.segs == R && d.segs == R + Split(rest) && r.lead == d.lead;
    ContainmentBySegments(cwd, root, full);
  }

  /** `root/..` leaves a root that has at least one component. */
  lemma ParentEscapes(cwd: seq<string>, root: string)
    requires ValidSegments(cwd)
    requires root != "" && root != "/" && root != "//"
    requires Canon(cwd, root).segs != []
    ensures !IsUnderRoot(cwd, root, root + "/..")
  {
    var full := root + "/..";
    assert full == root + "/" + "..";
    LeadPreserved(root, "/..");
    SplitConcat(root, "..");
    SplitNoSlash("..");
    var base := Base(cwd, root);
    var R := Resolve(base, Split(root));
    ResolveConcat(base, Split(root), [".."]);
    assert Resolve(R, [".."]) == R[..|R| - 1];
    ContainmentBySegments(cwd, root, full);
    assert !(R <= R[..|R| - 1]);
  }

  /** The root `/`: its `abspath` plus separator is `//`, so an ordinary
      absolute path `/name` fails the guard. */
  lemma SlashRootRejectsName(cwd: seq<string>, name: string)
    requires ValidSegments(cwd) && ValidSegment(name)
    ensures !IsUnderRoot(cwd, "/", "/" + name)
  {
    SlashRootCanon(cwd);
    SplitCons('/', name);
    SplitNoSlash(name);
    assert "/" + name == ['/'] + name;
    assert Split("/" + name) == ["", name];
    assert !StartsWith("/" + name, "//") by {
      assert name[0] != '/';
    }
    assert ["", name][1..] == [name] && [name][1..] == [];
    assert Resolve([], [name]) == Resolve([] + [name], []) == [name];
    assert Resolve([], ["", name]) == [name];
    assert Canon(cwd, "/" + name) == Canonical(1, [name]);
    ContainmentBySegments(cwd, "/", "/" + name);
  }

  /** Yet `Cling("/")` builds `"/" + path_info`: for a `path_info` that starts
      with exactly one slash that is a `//` path, which `abspath` keeps with
      two slashes and the guard accepts. */
  lemma SlashRootAcceptsRequest(cwd: seq<string>, pathInfo: string)
    requires ValidSegments(cwd)
    requires StartsWith(pathInfo, "/") && !StartsWith(pathInfo, "//")
    ensures IsUnderRoot(cwd, "/", "/" + pathInfo)
  {
    SlashRootCanon(cwd);
    var full := "/" + pathInfo;
    assert full[..2] == "//";
    assert !StartsWith(full, "///") by {
      if |full| >= 3 {
        assert pathInfo[..2] != "//";
        assert full[2] == pathInfo[1] != '/';
      }
    }
    assert Canon(cwd, full).lead == 2;
    ContainmentBySegments(cwd, "/", "/" + pathInfo);
  }

  lemma SlashRootCanon(cwd: seq<string>)
    requires ValidSegments(cwd)
    ensures Canon(cwd, "/") == Canonical(1, [])
  {
    SplitCons('/', "");
    assert "/" == ['/'] + "";
    assert Split("/") == ["", ""];
    assert ["", ""][1..] == [""] && [""][1..] == [];
    assert Resolve([], ["", ""]) == [];
    assert StartsWith("/", "/") && LeadingSlashes("/") == 1;
  }

  /** The last piece of a split. */
  function LastPiece(p: string): string
  {
    var s := Split(p); s[|s| - 1]
  }

  /** The components kept from everything before the last piece. */
  function Parent(cwd: seq<string>, p: string): seq<string>
    requires ValidSegments(cwd)
  {
    var s := Split(p); Resolve(Base(cwd, p), s[..|s| - 1])
  }

  /** When the last piece is a proper name, it ends the canonical segments. */
  lemma LastPieceKept(cwd: seq<string>, p: string)
    requires ValidSegments(cwd)
    requires ValidSegment(LastPiece(p))
    ensures Canon(cwd, p).segs == Parent(cwd, p) + [LastPiece(p)]
  {
    var s := Split(p);
    var n := |s|;
    assert s == s[..n - 1] + [s[n - 1]];
    ResolveConcat(Base(cwd, p), s[..n - 1], [s[n - 1]]);
    ResolveNames(Parent(cwd, p), [s[n - 1]]);
  }

  /** Text without separators glued onto a proper last name makes a
      different proper name in its place. */
  lemma GluedName(cwd: seq<string>, root: string, y: string)
    requires ValidSegments(cwd)
    requires root != "" && root != "/" && root != "//"
    requires ValidSegment(LastPiece(root))
    requires y != "" && '/' !in y
    ensures ValidSegment(LastPiece(root) + y) && LastPiece(root) + y != LastPiece(root)
    ensures Canon(cwd, root + y).segs == Parent(cwd, root) + [LastPiece(root) + y]
    ensures Canon(cwd, root + y).lead == Canon(cwd, root).lead
  {
    var s := Split(root);
    var n := |s|;
    var last := s[n - 1];
    var glued := last + y;
    SplitGlue(root, y);
    assert last == LastPiece(root);
    assert ValidSegment(glued) by {
      assert |glued| >= 2;
      assert glued[..|last|] == last;
      assert forall c :: c in glued ==> c in last || c in y;
    }
    LeadPreserved(root, y);
    var sy := Split(root + y);
    assert sy == s[..n - 1] + [glued];
    assert sy[..|sy| - 1] == s[..n - 1];
    assert Base(cwd, root + y) == Base(cwd, root);
    assert Parent(cwd, root + y) == Parent(cwd, root);
    assert LastPiece(root + y) == glued;
    LastPieceKept(cwd, root + y);
  }

  /** Text glued onto the root's last name gives a sibling, not a child:
      `/srv/www` does not contain `/srv/www-evil`, and a relative root
      `data/site` does not contain `data/site../secret`. */
  lemma SiblingRejected(cwd: seq<string>, root: string, y: string, rest: string)
    requires ValidSegments(cwd)
    requires root != "" && root != "/" && root != "//"
    requires ValidSegment(LastPiece(root))
    requires y != "" && '/' !in y
    requires ValidSegments(Split(rest))
    ensures !IsUnderRoot(cwd, root, root + y)
    ensures !IsUnderRoot(cwd, root, root + y + "/" + rest)
  {
    var P := Parent(cwd, root);
    var last := LastPiece(root);
    LastPieceKept(cwd, root);
    GluedName(cwd, root, y);
    var R := P + [last];
    var D1 := P + [last + y];
    ContainmentBySegments(cwd, root, root + y);
    assert D1[|P|] != R[|P|];

    var full := root + y + "/" + rest;
    assert full == root + (y + "/" + rest);
    LeadPreserved(root, y + "/" + rest);
    LeadPreserved(root, y);
    SplitConcat(root + y, rest);
    var base := Base(cwd, root);
    assert Base(cwd, full) == base && Base(cwd, root + y) == base;
    ResolveConcat(base, Split(root + y), Split(rest));
    ResolveNames(D1, Split(rest));
    var D2 := D1 + Split(rest);
    assert Canon(cwd, full).segs == D2;
    ContainmentBySegments(cwd, root, full);
    assert D2[|P|] != R[|P|];
  }

  /** The text `os.getcwd()` returns for a working directory. */
  function CwdText(cwd: seq<string>): string
  {
    "/" + Join(cwd)
  }

  /** `posixpath.join(a, b)`. */
  function JoinPath(a: string, b: string): string
  {
    if StartsWith(b, "/") then b
    else if a == "" || EndsWith(a, "/") then a + b
    else a + "/" + b
  }

  /** Resolving a relative path from the segment stack `cwd` is the same as
      `normpath(join(getcwd(), p))`, the definition `abspath` uses. */
  lemma RelativeUsesCwd(cwd: seq<string>, p: string)
    requires ValidSegments(cwd)
    requires !StartsWith(p, "/")
    ensures Canon(cwd, p) == Canon([], JoinPath(CwdText(cwd), p))
  {
    if cwd == [] {
      RelativeAtTop(p);
    } else {
      RelativeBelowTop(cwd, p);
    }
  }

  lemma RelativeAtTop(p: string)
    requires !StartsWith(p, "/")
    ensures Canon([], p) == Canon([], JoinPath(CwdText([]), p))
  {
    assert CwdText([]) == "/";
    assert JoinPath("/", p) == "/" + p;
    SlashedSegments(p);
    SlashedLead(p);
  }

  /** A slash in front of a path adds no component. */
  lemma SlashedSegments(p: string)
    ensures Resolve([], Split("/" + p)) == Resolve([], Split(p))
  {
    SplitConcat("", p);
    assert "" + "/" + p == "/" + p;
    assert Split("") == [""];
    ResolveConcat([], [""], Split(p));
    assert Resolve([], [""]) == [];
  }

  /** A slash in front of a relative path gives exactly one leading slash. */
  lemma SlashedLead(p: string)
    requires !StartsWith(p, "/")
    ensures StartsWith("/" + p, "/") && LeadingSlashes("/" + p) == 1
  {
    var full := "/" + p;
    if |p| >= 1 {
      assert full[..2] == "/" + p[..1];
      assert p[..1] != "/";
    } else {
      assert full == "/";
    }
  }

  lemma RelativeBelowTop(cwd: seq<string>, p: string)
    requires ValidSegments(cwd) && cwd != []
    requires !StartsWith(p, "/")
    ensures Canon(cwd, p) == Canon([], JoinPath(CwdText(cwd), p))
  {
    CwdTextUnterminated(cwd);
    assert JoinPath(CwdText(cwd), p) == CwdText(cwd) + "/" + p;
    CwdSegments(cwd, p);
    CwdLead(cwd, p);
  }

  /** `getcwd()` below the top does not end with a separator. */
  lemma CwdTextUnterminated(cwd: seq<string>)
    requires ValidSegments(cwd) && cwd != []
    ensures CwdText(cwd) != "" && !EndsWith(CwdText(cwd), "/")
  {
    var j := Join(cwd);
    var text := CwdText(cwd);
    TerminatedLast(cwd);
    assert text[|text| - 1] == j[|j| - 1];
    assert text[|text| - 1..] == [text[|text| - 1]];
  }

  /** Resolving `getcwd() + "/" + p` from the top is resolving `p` from the
      working directory. */
  lemma CwdSegments(cwd: seq<string>, p: string)
    requires ValidSegments(cwd) && cwd != []
    ensures Resolve([], Split(CwdText(cwd) + "/" + p)) == Resolve(cwd, Split(p))
  {
    var j := Join(cwd);
    var text := CwdText(cwd);
    SplitConcat(text, p);
    SplitConcat("", j);
    assert "" + "/" + j == text;
    assert Split("") == [""];
    assert NoSlashes(cwd);
    SplitJoin(cwd);
    assert Split(text) == [""] + cwd;
    ResolveConcat([], [""], cwd);
    ResolveNames([], cwd);
    assert Resolve([], [""] + cwd) == cwd;
    ResolveConcat([], [""] + cwd, Split(p));
  }

  /** `getcwd() + "/" + p` below the top has exactly one leading slash. */
  lemma CwdLead(cwd: seq<string>, p: string)
    requires ValidSegments(cwd) && cwd != []
    ensures StartsWith(CwdText(cwd) + "/" + p, "/") && LeadingSlashes(CwdText(cwd) + "/" + p) == 1
  {
    var j := Join(cwd);
    var full := CwdText(cwd) + "/" + p;
    JoinFirst(cwd);
    assert full[0] == '/' && full[1] == j[0] != '/';
    assert full[..1] == "/";
    assert full[..2] != "//";
  }

  /** `Join` of proper names starts with the first name's first character. */
  lemma JoinFirst(segs: seq<string>)
    requires |segs| > 0 && ValidSegments(segs)
    ensures Join(segs) != "" && Join(segs)[0] == segs[0][0] && Join(segs)[0] != '/'
  {
    assert ValidSegment(segs[0]);
    assert segs[0][0] in segs[0];
  }

  /** `Join` of proper names does not end with a separator. */
  lemma {:induction false} TerminatedLast(segs: seq<string>)
    requires |segs| > 0 && ValidSegments(segs)
    ensures Join(segs) != "" && Join(segs)[|Join(segs)| - 1] != '/'
    decreases |segs|
  {
    var last := segs[0];
    if |segs| == 1 {
      assert ValidSegment(last);
      assert last[|last| - 1] in last;
    } else {
      TerminatedLast(segs[1..]);
      var j := Join(segs[1..]);
      assert Join(segs) == segs[0] + "/" + j;
      assert Join(segs)[|Join(segs)| - 1] == j[|j| - 1];
    }
  }
}

=== FILE: static.dfy ===
/** The request handler: `Cling.__call__` with `Shock`'s magic hooks.

    A `Handler` carries the construction-time options; `Cling(root)` is a
    handler with no magics. One call of `Handle` answers one WSGI request:
    405 for methods other than GET and HEAD, 404 outside the root, 301 for a
    directory named without its trailing slash (or the root itself), the index
    file for a directory named with it, then the validators, the conditional
    test (304), and finally 200 with the body. */
module Static {
  import opened Common
  import opened Paths
  import opened Files
  import opened Host
  import opened Chunking
  import opened Magics
  import opened Conditional
  import opened Utf8

  datatype Header = Header(name: string, value: string)

  datatype Response = Response(status: string, headers: seq<Header>, body: seq<Bytes>)

  /** The exceptions other than IOError/OSError that reach the host: the
      ValueError of `stat` or `open` on a path with a NUL character, the
      ValueError of `read` with a block size below -1 (raised while the host
      iterates the body), and a template engine failing while it renders. */
  datatype Failure = NulInPath | BadReadSize | TemplateFailed

  /** What leaves `__call__`: a response, or an uncaught exception. */
  datatype Outcome = Answered(response: Response) | Raised(failure: Failure)

  /** `StatusApp`: answers with a fixed status line and message. */
  datatype StatusApp = StatusApp(status: string, message: string)

  /** `StatusApp(status, message=None)`: the message defaults to the status. */
  function NewStatusApp(status: string, message: Option<string>): StatusApp
  {
    StatusApp(status, match message case Some(m) => m case None => status)
  }

  /** A status app keeps its status, and its message is the one given, or
      the status line itself when none is. */
  lemma StatusAppMessage(status: string, message: Option<string>)
    ensures NewStatusApp(status, message).status == status
    ensures message.None? ==> NewStatusApp(status, message).message == status
    ensures message.Some? ==> NewStatusApp(status, message).message == message.value
  {
  }

  const notFound: StatusApp := NewStatusApp("404 Not Found", None)
  const notModified: StatusApp := NewStatusApp("304 Not Modified", Some(""))
  const movedPermanently: StatusApp := NewStatusApp("301 Moved Permanently", None)
  const methodNotAllowed: StatusApp := NewStatusApp("405 Method Not Allowed", None)

  /** `environ[key]` when present, `''` otherwise; every lookup the handler
      makes either defaults to `''` or treats `''` like an absent key. */
  function Get(environ: map<string, string>, key: string): string
  {
    if key in environ then environ[key] else ""
  }

  function Method(environ: map<string, string>): string
    requires "REQUEST_METHOD" in environ
  {
    environ["REQUEST_METHOD"]
  }

  /** `StatusApp.__call__`: the message as the body for GET, one empty chunk
      for every other method. */
  function CallStatusApp(app: StatusApp, environ: map<string, string>, headers: seq<Header>): (r: Response)
    requires "REQUEST_METHOD" in environ
    ensures r.status == app.status && r.headers == headers && |r.body| == 1
    ensures Method(environ) == "GET" ==> Concat(r.body) == Encode(app.message)
    ensures Method(environ) != "GET" ==> Concat(r.body) == []
  {
    if Method(environ) == "GET" then Response(app.status, headers, [Encode(app.message)])
    else Response(app.status, headers, [[]])
  }

  /** Construction-time options of `Cling`/`Shock`. */
  datatype Handler = Handler(root: string, blockSize: int, indexFile: string, magics: seq<Magic>)

  /** `Cling(root)` with its defaults. */
  function Cling(root: string): (h: Handler)
    ensures h.root == root && h.blockSize == 65536 && h.indexFile == "index.html" && h.magics == []
  {
    Handler(root, 16 * 4096, "index.html", [])
  }

  /** `Shock(root, magics)` with its defaults. */
  function Shock(root: string, magics: seq<Magic>): (h: Handler)
    ensures h.root == root && h.blockSize == 65536 && h.indexFile == "index.html" && h.magics == magics
  {
    Handler(root, 16 * 4096, "index.html", magics)
  }

  /** The machine a request runs on: files, working directory, clock. */
  datatype Machine = Machine(fs: FileSystem, cwd: seq<string>, now: int)

  predicate ValidMachine(os: Machine)
  {
    ValidSegments(os.cwd)
  }

  /** `self._full_path(path_info)`. */
  function FullPath(h: Handler, os: Machine, pathInfo: string): string
    requires ValidMachine(os)
  {
    ResolveFullPath(h.root, h.magics, os.fs, os.cwd, pathInfo)
  }

  /** The `Location` of a redirect: the request URI without its query, a
      slash, then `?` and the query string when there is one. */
  function Location(plat: Platform, environ: map<string, string>): string
  {
    var query := Get(environ, "QUERY_STRING");
    plat.requestUri(environ) + "/" + (if query != "" then "?" + query else "")
  }

  /** The Location is the request URI and a slash, followed by `?` and the
      query string exactly when a non-empty one was sent. */
  lemma LocationShape(plat: Platform, environ: map<string, string>)
    ensures var r := Location(plat, environ);
      var uri := plat.requestUri(environ);
      var query := Get(environ, "QUERY_STRING");
      StartsWith(r, uri + "/") &&
      (query == "" ==> r == uri + "/") &&
      (query != "" ==> r[|uri| + 1..] == "?" + query)
  {
  }

  datatype Validators = Validators(etag: string, lastModified: string)

  /** `self._conditions(full_path, environ)`: a matching magic's validators,
      otherwise `str(mtime)` and `formatdate(mtime)` from `stat`, which raises
      (`None`) for a missing path. */
  function PathValidators(h: Handler, plat: Platform, os: Machine, full: string): (r: Option<Validators>)
    requires ValidMachine(os)
    ensures r.Some? <==> MatchMagic(h.magics, full).Some? || Exists(os.fs, os.cwd, full)
    ensures r.Some? && MatchMagic(h.magics, full).Some? ==>
              DatesRoundTrip(plat) ==> plat.parseDate(r.value.lastModified) == os.now
    ensures r.Some? && MatchMagic(h.magics, full).None? ==>
              var t := Stat(os.fs, os.cwd, full).value.mtime;
              r.value.etag == plat.mtimeText(t) &&
              (DatesRoundTrip(plat) ==> plat.parseDate(r.value.lastModified) == t)
  {
    match MatchMagic(h.magics, full)
    case Some(_) =>
      var v := MagicValidators(plat, os.now);
      Some(Validators(v.0, v.1))
    case None =>
      match Stat(os.fs, os.cwd, full)
      case Some(node) =>
        Some(Validators(plat.mtimeText(node.mtime), plat.formatDate(node.mtime)))
      case None => None
  }

  /** The body of a GET once it has been produced: its chunks, or the
      exception producing it raised. */
  datatype Body = Chunks(chunks: seq<Bytes>) | Failed(failure: Failure)

  /** `self._body(...)` for GET: a matching magic renders one chunk, otherwise
      the file is read in blocks, which fails for a block size below -1. */
  function GetBody(h: Handler, plat: Platform, environ: map<string, string>, full: string, content: Bytes): (r: Body)
    ensures MatchMagic(h.magics, full).Some? ==>
              (r.Chunks? ==> |r.chunks| == 1) && (r.Failed? ==> r.failure == TemplateFailed)
    ensures MatchMagic(h.magics, full).None? ==>
              (r.Failed? <==> !ReadSizeAccepted(h.blockSize)) && (r.Failed? ==> r.failure == BadReadSize)
    ensures MatchMagic(h.magics, full).None? && ReadSizeAccepted(h.blockSize) && h.blockSize != 0 ==>
              Concat(r.chunks) == content
  {
    match MatchMagic(h.magics, full)
    case Some(m) =>
      (match RenderBody(m, plat, environ, content)
       case Some(b) => Chunks([b])
       case None => Failed(TemplateFailed))
    case None =>
      if ReadSizeAccepted(h.blockSize) then Chunks(Blocks(content, h.blockSize)) else Failed(BadReadSize)
  }

  /** Lines 103-124 of `__call__`, from the resolved path on. The answer is
      404, 304 or 200; an exception escapes only from a path with a NUL
      character (at `stat` when no magic supplies the validators, at `open`
      otherwise), from the first `read` of a GET's file with a block size
      below -1, or from a template rendering a GET. */
  function Serve(h: Handler, plat: Platform, os: Machine, environ: map<string, string>, full: string): (r: Outcome)
    requires ValidMachine(os)
    requires "REQUEST_METHOD" in environ
    ensures r.Answered? ==>
              r.response.status in {"404 Not Found", "304 Not Modified", "200 OK"}
    ensures r == Raised(NulInPath) ==> EmbeddedNul(full)
    ensures r == Raised(TemplateFailed) ==> Method(environ) == "GET" && MatchMagic(h.magics, full).Some?
    ensures r == Raised(BadReadSize) ==>
              Method(environ) == "GET" && MatchMagic(h.magics, full).None? && !ReadSizeAccepted(h.blockSize)
    ensures EmbeddedNul(full) && MatchMagic(h.magics, full).None? ==> r == Raised(NulInPath)
  {
    var contentType := GuessType(h.magics, plat, full);
    if MatchMagic(h.magics, full).None? && EmbeddedNul(full) then Raised(NulInPath)
    else
    match PathValidators(h, plat, os, full)
    case None => Answered(CallStatusApp(notFound, environ, []))
    case Some(v) =>
      var headers := [Header("Date", plat.formatDate(os.now)),
                      Header("Last-Modified", v.lastModified),
                      Header("ETag", v.etag)];
      var verdict := Evaluate(Get(environ, "HTTP_IF_MODIFIED_SINCE"), Get(environ, "HTTP_IF_NONE_MATCH"),
                              v.etag, v.lastModified, plat.parseDate);
      if verdict != Proceed then Answered(CallStatusApp(notModified, environ, headers))
      else if EmbeddedNul(full) then Raised(NulInPath)
      else
        match Open(os.fs, os.cwd, full)
        case None => Answered(CallStatusApp(notFound, environ, []))
        case Some(content) =>
          var okHeaders := headers + [Header("Content-Type", contentType)];
          if Method(environ) == "GET" then
            (match GetBody(h, plat, environ, full, content)
             case Chunks(body) => Answered(Response("200 OK", okHeaders, body))
             case Failed(failure) => Raised(failure))
          else Answered(Response("200 OK", okHeaders, [[]]))
  }

  /** `Cling.__call__` (and `Shock`'s, through the handler's magics). */
  function Handle(h: Handler, plat: Platform, os: Machine, environ: map<string, string>): (r: Outcome)
    requires ValidMachine(os)
    requires "REQUEST_METHOD" in environ
    ensures r.Answered? ==>
              r.response.status in {"405 Method Not Allowed", "404 Not Found", "301 Moved Permanently",
                                    "304 Not Modified", "200 OK"}
    ensures (r.Answered? && r.response.status == "405 Method Not Allowed") <==>
              Method(environ) != "GET" && Method(environ) != "HEAD"
    ensures r.Answered? && r.response.status == "301 Moved Permanently" ==>
              IsDir(os.fs, os.cwd, FullPath(h, os, Get(environ, "PATH_INFO")))
    ensures r == Raised(TemplateFailed) ==> Method(environ) == "GET"
    ensures r == Raised(BadReadSize) ==> Method(environ) == "GET" && !ReadSizeAccepted(h.blockSize)
  {
    var verb := Method(environ);
    if verb != "GET" && verb != "HEAD" then
      Answered(CallStatusApp(methodNotAllowed, environ, []))
    else
      var pathInfo := Get(environ, "PATH_INFO");
      var full := FullPath(h, os, pathInfo);
      if !IsUnderRoot(os.cwd, h.root, full) then
        Answered(CallStatusApp(notFound, environ, []))
      else if IsDir(os.fs, os.cwd, full) then
        if full[|full| - 1] != '/' || full == h.root then
          Answered(CallStatusApp(movedPermanently, environ, [Header("Location", Location(plat, environ))]))
        else
          Serve(h, plat, os, environ, FullPath(h, os, pathInfo + h.indexFile))
      else
        Serve(h, plat, os, environ, full)
  }
}

=== FILE: static_props.dfy ===
/** What a request to the handler can and cannot produce, stated over every
    handler, machine and request: the order of the checks in
    `Cling.__call__`, the shape of each kind of response, and the behaviours
    the repository's own tests pin down. */
module StaticProps {
  import opened Common
  import opened Paths
  import opened Files
  import opened Host
  import opened Chunking
  import opened Magics
  import opened Conditional
  import opened Static
  import opened Utf8

  predicate HasMethod(environ: map<string, string>)
  {
    "REQUEST_METHOD" in environ
  }

  predicate GetOrHead(environ: map<string, string>)
  {
    HasMethod(environ) && (Method(environ) == "GET" || Method(environ) == "HEAD")
  }

  /** The body every status response and every HEAD response carries. */
  const emptyBody: seq<Bytes> := [[]]

  // ---------------------------------------------------------------------
  // 405 first

  /** Any method other than GET and HEAD is answered 405, with no headers and
      an empty body, before the path or the filesystem is looked at: the
      answer is the same for every handler and every machine. */
  lemma MethodCheckedFirst(h1: Handler, h2: Handler, plat: Platform, os1: Machine, os2: Machine,
                           environ: map<string, string>)
    requires ValidMachine(os1) && ValidMachine(os2) && HasMethod(environ)
    requires Method(environ) != "GET" && Method(environ) != "HEAD"
    ensures Handle(h1, plat, os1, environ) == Handle(h2, plat, os2, environ)
    ensures Handle(h1, plat, os1, environ) == Answered(Response("405 Method Not Allowed", [], emptyBody))
  {
  }

  // ---------------------------------------------------------------------
  // Containment

  /** A resolved path that fails the guard is answered 404 and nothing else,
      whatever exists on disk. */
  lemma OutsideRootNotFound(h: Handler, plat: Platform, os: Machine, environ: map<string, string>)
    requires ValidMachine(os) && GetOrHead(environ)
    requires !IsUnderRoot(os.cwd, h.root, FullPath(h, os, Get(environ, "PATH_INFO")))
    ensures Handle(h, plat, os, environ) == Answered(CallStatusApp(notFound, environ, []))
    ensures Handle(h, plat, os, environ).response.status == "404 Not Found"
  {
  }

  /** A request for `../rest` under a root `parent/name` names the sibling
      `name..` of the root and gets 404 (with `tests/data/withindex` and
      `../__init__.py`, the case the tests exercise). */
  lemma ParentOfRootNotFound(parent: string, name: string, rest: string, plat: Platform, os: Machine,
                             environ: map<string, string>)
    requires ValidMachine(os) && GetOrHead(environ)
    requires ValidSegment(name) && ValidSegment(rest)
    requires Get(environ, "PATH_INFO") == "../" + rest
    ensures Handle(Cling(parent + "/" + name), plat, os, environ).Answered?
    ensures Handle(Cling(parent + "/" + name), plat, os, environ).response.status == "404 Not Found"
  {
    var root := parent + "/" + name;
    var h := Cling(root);
    ParentOfRootRejected(os.cwd, parent, name, rest);
    NoMagicsLiteralPath(root, os.fs, os.cwd, "../" + rest);
    assert root + ".." + "/" + rest == root + ("../" + rest);
    OutsideRootNotFound(h, plat, os, environ);
  }

  lemma ParentOfRootRejected(cwd: seq<string>, parent: string, name: string, rest: string)
    requires ValidSegments(cwd)
    requires ValidSegment(name) && ValidSegment(rest)
    ensures !IsUnderRoot(cwd, parent + "/" + name, parent + "/" + name + ".." + "/" + rest)
  {
    var root := parent + "/" + name;
    assert root[|root| - 1] == name[|name| - 1];
    NameAfterSlash(parent, name);
    SplitNoSlash(rest);
    SiblingRejected(cwd, root, "..", rest);
  }

  /** The last piece of `a/b` is `b` when `b` holds no separator. */
  lemma NameAfterSlash(a: string, b: string)
    requires '/' !in b
    ensures LastPiece(a + "/" + b) == b
  {
    SplitConcat(a, b);
    SplitNoSlash(b);
  }

  // ---------------------------------------------------------------------
  // Directories

  /** A directory named without its trailing slash, or the root itself, is
      redirected to the same URI with a slash added, keeping any query. */
  lemma DirectoryRedirected(h: Handler, plat: Platform, os: Machine, environ: map<string, string>)
    requires ValidMachine(os) && GetOrHead(environ)
    requires var full := FullPath(h, os, Get(environ, "PATH_INFO"));
      IsUnderRoot(os.cwd, h.root, full) && IsDir(os.fs, os.cwd, full) &&
      (full[|full| - 1] != '/' || full == h.root)
    ensures var r := Handle(h, plat, os, environ);
      var query := Get(environ, "QUERY_STRING");
      r.Answered? && r.response.status == "301 Moved Permanently" &&
      r.response.headers == [Header("Location", plat.requestUri(environ) + "/" + (if query == "" then "" else "?" + query))]
  {
  }

  /** `/subdir?foo=1` is redirected to `<uri>/?foo=1`. */
  lemma RedirectKeepsQuery(h: Handler, plat: Platform, os: Machine, environ: map<string, string>)
    requires ValidMachine(os) && GetOrHead(environ)
    requires Get(environ, "QUERY_STRING") == "foo=1"
    requires var full := FullPath(h, os, Get(environ, "PATH_INFO"));
      IsUnderRoot(os.cwd, h.root, full) && IsDir(os.fs, os.cwd, full) && full[|full| - 1] != '/'
    ensures var r := Handle(h, plat, os, environ);
      r.Answered? && r.response.headers == [Header("Location", plat.requestUri(environ) + "/?foo=1")]
  {
    DirectoryRedirected(h, plat, os, environ);
    QueryAppended(plat.requestUri(environ), Get(environ, "QUERY_STRING"));
  }

  lemma QueryAppended(uri: string, query: string)
    requires query == "foo=1"
    ensures uri + "/" + (if query == "" then "" else "?" + query) == uri + "/?foo=1"
  {
  }

  /** A directory named with its trailing slash is served through its index
      file, resolved like any other request path. */
  lemma DirectoryServesIndex(h: Handler, plat: Platform, os: Machine, environ: map<string, string>)
    requires ValidMachine(os) && GetOrHead(environ)
    requires var full := FullPath(h, os, Get(environ, "PATH_INFO"));
      IsUnderRoot(os.cwd, h.root, full) && IsDir(os.fs, os.cwd, full) &&
      full[|full| - 1] == '/' && full != h.root
    ensures Handle(h, plat, os, environ) ==
            Serve(h, plat, os, environ, FullPath(h, os, Get(environ, "PATH_INFO") + h.indexFile))
  {
  }

  /** Without magics, a directory whose index file does not exist is 404
      (for an index file name without a NUL character). */
  lemma MissingIndexNotFound(h: Handler, plat: Platform, os: Machine, environ: map<string, string>)
    requires ValidMachine(os) && GetOrHead(environ) && h.magics == [] && !EmbeddedNul(h.indexFile)
    requires var full := FullPath(h, os, Get(environ, "PATH_INFO"));
      IsUnderRoot(os.cwd, h.root, full) && IsDir(os.fs, os.cwd, full) &&
      full[|full| - 1] == '/' && full != h.root
    requires !Exists(os.fs, os.cwd, h.root + Get(environ, "PATH_INFO") + h.indexFile)
    ensures Handle(h, plat, os, environ).Answered?
    ensures Handle(h, plat, os, environ).response.status == "404 Not Found"
  {
    var pathInfo := Get(environ, "PATH_INFO");
    DirectoryServesIndex(h, plat, os, environ);
    NoMagicsIndexPath(h, os, pathInfo);
    NoMagicsLiteralPath(h.root, os.fs, os.cwd, pathInfo);
    assert !EmbeddedNul(h.root + pathInfo);
    NothingOnDiskNotFound(h, plat, os, environ, h.root + pathInfo + h.indexFile);
  }

  lemma NoMagicsIndexPath(h: Handler, os: Machine, pathInfo: string)
    requires ValidMachine(os) && h.magics == []
    ensures FullPath(h, os, pathInfo + h.indexFile) == h.root + pathInfo + h.indexFile
  {
    NoMagicsLiteralPath(h.root, os.fs, os.cwd, pathInfo + h.indexFile);
    assert h.root + (pathInfo + h.indexFile) == h.root + pathInfo + h.indexFile;
  }

  // ---------------------------------------------------------------------
  // Serving a resolved path

  /** Once the validators are known and no conditional header hits, a path
      that cannot be opened (a directory, or a template path that does not
      exist) is 404 with no headers; a path with a NUL character raises
      instead (`NulPathRaises`). */
  lemma OpenFailureNotFound(h: Handler, plat: Platform, os: Machine, environ: map<string, string>, full: string)
    requires ValidMachine(os) && GetOrHead(environ) && !EmbeddedNul(full)
    requires PathValidators(h, plat, os, full).Some?
    requires var v := PathValidators(h, plat, os, full).value;
      Evaluate(Get(environ, "HTTP_IF_MODIFIED_SINCE"), Get(environ, "HTTP_IF_NONE_MATCH"),
               v.etag, v.lastModified, plat.parseDate) == Proceed
    requires Open(os.fs, os.cwd, full).None?
    ensures Serve(h, plat, os, environ, full) == Answered(CallStatusApp(notFound, environ, []))
    ensures Serve(h, plat, os, environ, full).response.status == "404 Not Found"
  {
  }

  /** A path no magic claims and nothing on disk answers to is 404: stat
      fails before any header is produced. A path with a NUL character is
      the exception: `stat` raises ValueError, which is not caught. */
  lemma NothingOnDiskNotFound(h: Handler, plat: Platform, os: Machine, environ: map<string, string>, full: string)
    requires ValidMachine(os) && GetOrHead(environ) && !EmbeddedNul(full)
    requires MatchMagic(h.magics, full).None? && !Exists(os.fs, os.cwd, full)
    ensures Serve(h, plat, os, environ, full) == Answered(CallStatusApp(notFound, environ, []))
    ensures Serve(h, plat, os, environ, full).response.status == "404 Not Found"
  {
  }

  /** Once the validators are known, a conditional hit is answered 304 with
      exactly Date, Last-Modified and ETag and an empty body (no
      Content-Type); otherwise the answer is not 304. */
  lemma ConditionalAnswer(h: Handler, plat: Platform, os: Machine, environ: map<string, string>, full: string)
    requires ValidMachine(os) && GetOrHead(environ)
    requires PathValidators(h, plat, os, full).Some?
    ensures var v := PathValidators(h, plat, os, full).value;
      var verdict := Evaluate(Get(environ, "HTTP_IF_MODIFIED_SINCE"), Get(environ, "HTTP_IF_NONE_MATCH"),
                              v.etag, v.lastModified, plat.parseDate);
      var r := Serve(h, plat, os, environ, full);
      (verdict != Proceed ==>
        r == Answered(Response("304 Not Modified",
                               [Header("Date", plat.formatDate(os.now)),
                                Header("Last-Modified", v.lastModified),
                                Header("ETag", v.etag)],
                               emptyBody))) &&
      (verdict == Proceed ==> r.Raised? || r.response.status != "304 Not Modified")
  {
    assert Encode("") == [];
  }

  /** Every 304 the handler sends, for any request, carries exactly Date,
      Last-Modified and ETag, in that order, and an empty body. */
  lemma NotModifiedShape(h: Handler, plat: Platform, os: Machine, environ: map<string, string>)
    requires ValidMachine(os) && HasMethod(environ)
    requires Handle(h, plat, os, environ).Answered?
    requires Handle(h, plat, os, environ).response.status == "304 Not Modified"
    ensures var r := Handle(h, plat, os, environ).response;
      |r.headers| == 3 && r.headers[0].name == "Date" && r.headers[1].name == "Last-Modified" &&
      r.headers[2].name == "ETag" && r.body == emptyBody
  {
    var pathInfo := Get(environ, "PATH_INFO");
    var full := FullPath(h, os, pathInfo);
    if IsDir(os.fs, os.cwd, full) && !(full[|full| - 1] != '/' || full == h.root) {
      ServeNotModifiedShape(h, plat, os, environ, FullPath(h, os, pathInfo + h.indexFile));
    } else {
      ServeNotModifiedShape(h, plat, os, environ, full);
    }
  }

  lemma ServeNotModifiedShape(h: Handler, plat: Platform, os: Machine, environ: map<string, string>, full: string)
    requires ValidMachine(os) && GetOrHead(environ)
    ensures var o := Serve(h, plat, os, environ, full);
      o.Answered? && o.response.status == "304 Not Modified" ==>
        |o.response.headers| == 3 && o.response.headers[0].name == "Date" &&
        o.response.headers[1].name == "Last-Modified" && o.response.headers[2].name == "ETag" &&
        o.response.body == emptyBody
  {
    if PathValidators(h, plat, os, full).Some? {
      ConditionalAnswer(h, plat, os, environ, full);
    }
  }

  /** Every 200 the handler sends carries Date, Last-Modified, ETag and then
      a non-empty Content-Type. */
  lemma OkShape(h: Handler, plat: Platform, os: Machine, environ: map<string, string>)
    requires ValidMachine(os) && HasMethod(environ)
    requires Handle(h, plat, os, environ).Answered?
    requires Handle(h, plat, os, environ).response.status == "200 OK"
    ensures var r := Handle(h, plat, os, environ).response;
      |r.headers| == 4 && r.headers[0].name == "Date" && r.headers[1].name == "Last-Modified" &&
      r.headers[2].name == "ETag" && r.headers[3].name == "Content-Type" && r.headers[3].value != ""
  {
    var pathInfo := Get(environ, "PATH_INFO");
    var full := FullPath(h, os, pathInfo);
    if IsDir(os.fs, os.cwd, full) && !(full[|full| - 1] != '/' || full == h.root) {
      ServeOkShape(h, plat, os, environ, FullPath(h, os, pathInfo + h.indexFile));
    } else {
      ServeOkShape(h, plat, os, environ, full);
    }
  }

  lemma ServeOkShape(h: Handler, plat: Platform, os: Machine, environ: map<string, string>, full: string)
    requires ValidMachine(os) && GetOrHead(environ)
    ensures var o := Serve(h, plat, os, environ, full);
      o.Answered? && o.response.status == "200 OK" ==>
        |o.response.headers| == 4 && o.response.headers[0].name == "Date" &&
        o.response.headers[1].name == "Last-Modified" && o.response.headers[2].name == "ETag" &&
        o.response.headers[3] == Header("Content-Type", GuessType(h.magics, plat, full))
  {
  }

  // ---------------------------------------------------------------------
  // Plain files

  /** Without magics, a request whose path names a regular file inside the
      root goes straight to serving that file. */
  lemma PlainFileReachesServe(h: Handler, plat: Platform, os: Machine, environ: map<string, string>)
    requires ValidMachine(os) && GetOrHead(environ) && h.magics == []
    requires var full := h.root + Get(environ, "PATH_INFO");
      IsUnderRoot(os.cwd, h.root, full) && Stat(os.fs, os.cwd, full).Some? && Stat(os.fs, os.cwd, full).value.File?
    ensures Handle(h, plat, os, environ) == Serve(h, plat, os, environ, h.root + Get(environ, "PATH_INFO"))
  {
    NoMagicsLiteralPath(h.root, os.fs, os.cwd, Get(environ, "PATH_INFO"));
  }

  /** Serving a regular file without magics and without a conditional hit:
      200 with Date, Last-Modified = `formatdate(mtime)`, ETag = `str(mtime)`
      and the guessed type; GET gets the file in blocks that put back
      together give its bytes, HEAD gets an empty body. A GET with a block
      size below -1 raises at the first `read` instead. */
  lemma PlainFileServed(h: Handler, plat: Platform, os: Machine, environ: map<string, string>, full: string)
    requires ValidMachine(os) && GetOrHead(environ) && h.magics == []
    requires Stat(os.fs, os.cwd, full).Some? && Stat(os.fs, os.cwd, full).value.File?
    requires var t := Stat(os.fs, os.cwd, full).value.mtime;
      Evaluate(Get(environ, "HTTP_IF_MODIFIED_SINCE"), Get(environ, "HTTP_IF_NONE_MATCH"),
               plat.mtimeText(t), plat.formatDate(t), plat.parseDate) == Proceed
    ensures Method(environ) == "GET" && !ReadSizeAccepted(h.blockSize) ==>
              Serve(h, plat, os, environ, full) == Raised(BadReadSize)
    ensures var node := Stat(os.fs, os.cwd, full).value;
      var r := Serve(h, plat, os, environ, full);
      (Method(environ) == "HEAD" || ReadSizeAccepted(h.blockSize)) ==>
      r.Answered? && r.response.status == "200 OK" &&
      r.response.headers == [Header("Date", plat.formatDate(os.now)),
                             Header("Last-Modified", plat.formatDate(node.mtime)),
                             Header("ETag", plat.mtimeText(node.mtime)),
                             Header("Content-Type", ContentType(plat, full))] &&
      (Method(environ) == "GET" ==> r.response.body == Blocks(node.content, h.blockSize)) &&
      (Method(environ) == "GET" && h.blockSize != 0 ==> Concat(r.response.body) == node.content) &&
      (Method(environ) == "HEAD" ==> r.response.body == emptyBody)
  {
  }

  /** `Cling(root)` answers GET for a regular file inside the root with the
      file's bytes. */
  lemma ClingServesFileBytes(root: string, plat: Platform, os: Machine, environ: map<string, string>)
    requires ValidMachine(os) && HasMethod(environ) && Method(environ) == "GET"
    requires Get(environ, "HTTP_IF_MODIFIED_SINCE") == "" && Get(environ, "HTTP_IF_NONE_MATCH") == ""
    requires var full := root + Get(environ, "PATH_INFO");
      IsUnderRoot(os.cwd, root, full) && Stat(os.fs, os.cwd, full).Some? && Stat(os.fs, os.cwd, full).value.File?
    ensures var r := Handle(Cling(root), plat, os, environ);
      r.Answered? && r.response.status == "200 OK" &&
      Concat(r.response.body) == Stat(os.fs, os.cwd, root + Get(environ, "PATH_INFO")).value.content
  {
    var h := Cling(root);
    PlainFileReachesServe(h, plat, os, environ);
    PlainFileServed(h, plat, os, environ, root + Get(environ, "PATH_INFO"));
  }

  /** A client echoing the ETag it was given gets 304. */
  lemma EchoedETagNotModified(h: Handler, plat: Platform, os: Machine, environ: map<string, string>, full: string)
    requires ValidMachine(os) && GetOrHead(environ) && h.magics == []
    requires Stat(os.fs, os.cwd, full).Some?
    requires Get(environ, "HTTP_IF_MODIFIED_SINCE") == ""
    requires Get(environ, "HTTP_IF_NONE_MATCH") == plat.mtimeText(Stat(os.fs, os.cwd, full).value.mtime)
    requires Get(environ, "HTTP_IF_NONE_MATCH") != ""
    ensures Serve(h, plat, os, environ, full).response.status == "304 Not Modified"
  {
    var t := Stat(os.fs, os.cwd, full).value.mtime;
    var inm := Get(environ, "HTTP_IF_NONE_MATCH");
    assert inm == "" + plat.mtimeText(t) + "";
    EchoedTagNotModified(inm, "", plat.mtimeText(t), "", plat.formatDate(t), plat.parseDate);
    ConditionalAnswer(h, plat, os, environ, full);
  }

  /** If-Modified-Since at or after the file's modification time gives 304,
      when dates survive formatting and parsing. */
  lemma LaterModifiedSinceNotModified(h: Handler, plat: Platform, os: Machine, environ: map<string, string>, full: string)
    requires ValidMachine(os) && GetOrHead(environ) && h.magics == []
    requires DatesRoundTrip(plat)
    requires Stat(os.fs, os.cwd, full).Some?
    requires Get(environ, "HTTP_IF_MODIFIED_SINCE") != ""
    requires plat.parseDate(Get(environ, "HTTP_IF_MODIFIED_SINCE")) >= Stat(os.fs, os.cwd, full).value.mtime
    ensures Serve(h, plat, os, environ, full).response.status == "304 Not Modified"
  {
    var t := Stat(os.fs, os.cwd, full).value.mtime;
    assert plat.parseDate(plat.formatDate(t)) == t;
    ConditionalAnswer(h, plat, os, environ, full);
  }

  /** A path with a NUL character that no magic claims, and that passes the
      guard, makes `stat` raise ValueError, which leaves the handler
      uncaught: no response is produced. */
  lemma NulPathRaises(h: Handler, plat: Platform, os: Machine, environ: map<string, string>)
    requires ValidMachine(os) && GetOrHead(environ)
    requires var full := FullPath(h, os, Get(environ, "PATH_INFO"));
      IsUnderRoot(os.cwd, h.root, full) && EmbeddedNul(full) && MatchMagic(h.magics, full).None?
    ensures Handle(h, plat, os, environ) == Raised(NulInPath)
  {
  }

  // ---------------------------------------------------------------------
  // HEAD

  /** HEAD is answered like GET, with the same status and headers, and an
      empty body; where GET would fail in a template engine or in reading
      the file, HEAD, which produces no body, gets 200. The one exception
      both raise alike is the ValueError of a path with a NUL character. */
  lemma HeadMirrorsGet(h: Handler, plat: Platform, os: Machine, environ: map<string, string>)
    requires ValidMachine(os) && HasMethod(environ) && Method(environ) == "GET"
    requires plat.requestUri(environ["REQUEST_METHOD" := "HEAD"]) == plat.requestUri(environ)
    ensures var head := environ["REQUEST_METHOD" := "HEAD"];
      var g := Handle(h, plat, os, environ);
      var hd := Handle(h, plat, os, head);
      (g.Answered? ==> hd == Answered(g.response.(body := emptyBody))) &&
      (g == Raised(TemplateFailed) || g == Raised(BadReadSize) ==> hd.Answered? && hd.response.status == "200 OK") &&
      (g == Raised(NulInPath) <==> hd == Raised(NulInPath)) &&
      hd != Raised(TemplateFailed) && hd != Raised(BadReadSize)
  {
    var head := environ["REQUEST_METHOD" := "HEAD"];
    SameRequestFields(environ, head);
    var pathInfo := Get(environ, "PATH_INFO");
    var full := FullPath(h, os, pathInfo);
    if IsUnderRoot(os.cwd, h.root, full) && IsDir(os.fs, os.cwd, full) {
      if !(full[|full| - 1] != '/' || full == h.root) {
        ServeHeadMirrorsGet(h, plat, os, environ, FullPath(h, os, pathInfo + h.indexFile));
      }
    } else if IsUnderRoot(os.cwd, h.root, full) {
      ServeHeadMirrorsGet(h, plat, os, environ, full);
    }
  }

  lemma SameRequestFields(environ: map<string, string>, head: map<string, string>)
    requires HasMethod(environ) && head == environ["REQUEST_METHOD" := "HEAD"]
    ensures Get(head, "PATH_INFO") == Get(environ, "PATH_INFO")
    ensures Get(head, "QUERY_STRING") == Get(environ, "QUERY_STRING")
    ensures Get(head, "HTTP_IF_MODIFIED_SINCE") == Get(environ, "HTTP_IF_MODIFIED_SINCE")
    ensures Get(head, "HTTP_IF_NONE_MATCH") == Get(environ, "HTTP_IF_NONE_MATCH")
  {
  }

  lemma ServeHeadMirrorsGet(h: Handler, plat: Platform, os: Machine, environ: map<string, string>, full: string)
    requires ValidMachine(os) && HasMethod(environ) && Method(environ) == "GET"
    ensures var head := environ["REQUEST_METHOD" := "HEAD"];
      var g := Serve(h, plat, os, environ, full);
      var hd := Serve(h, plat, os, head, full);
      (g.Answered? ==> hd == Answered(g.response.(body := emptyBody))) &&
      (g == Raised(TemplateFailed) || g == Raised(BadReadSize) ==> hd.Answered? && hd.response.status == "200 OK") &&
      (g == Raised(NulInPath) <==> hd == Raised(NulInPath)) &&
      hd != Raised(TemplateFailed) && hd != Raised(BadReadSize)
  {
    SameRequestFields(environ, environ["REQUEST_METHOD" := "HEAD"]);
  }

  // ---------------------------------------------------------------------
  // Magics

  /** A template can be requested by its bare name or by its full name: when
      the bare name does not exist and the first magic with an existing
      augmented file is magic `k`, both requests resolve to the same path. */
  lemma BareAndAugmentedResolveAlike(root: string, magics: seq<Magic>, os: Machine, pathInfo: string, k: nat)
    requires ValidMachine(os)
    requires !Exists(os.fs, os.cwd, root + pathInfo)
    requires k < |magics| && Exists(os.fs, os.cwd, NewPath(magics[k], root + pathInfo))
    requires forall j :: 0 <= j < k ==> !Exists(os.fs, os.cwd, NewPath(magics[j], root + pathInfo))
    ensures FullPath(Shock(root, magics), os, pathInfo) == FullPath(Shock(root, magics), os, pathInfo + magics[k].extension)
    ensures FullPath(Shock(root, magics), os, pathInfo) == root + pathInfo + magics[k].extension
  {
    BareResolvesToTemplate(root, magics, os, pathInfo, k);
    AugmentedResolvesToItself(root, magics, os, pathInfo, magics[k].extension);
  }

  lemma BareResolvesToTemplate(root: string, magics: seq<Magic>, os: Machine, pathInfo: string, k: nat)
    requires ValidMachine(os)
    requires !Exists(os.fs, os.cwd, root + pathInfo)
    requires k < |magics| && Exists(os.fs, os.cwd, NewPath(magics[k], root + pathInfo))
    requires forall j :: 0 <= j < k ==> !Exists(os.fs, os.cwd, NewPath(magics[j], root + pathInfo))
    ensures FullPath(Shock(root, magics), os, pathInfo) == root + pathInfo + magics[k].extension
  {
    MissingPathUsesFirstTemplate(root, magics, os.fs, os.cwd, pathInfo, k);
  }

  lemma AugmentedResolvesToItself(root: string, magics: seq<Magic>, os: Machine, pathInfo: string, ext: string)
    requires ValidMachine(os) && Exists(os.fs, os.cwd, root + pathInfo + ext)
    ensures FullPath(Shock(root, magics), os, pathInfo + ext) == root + pathInfo + ext
  {
    assert root + (pathInfo + ext) == root + pathInfo + ext;
    LiteralWhenPresent(root, magics, os, pathInfo + ext);
  }

  lemma LiteralWhenPresent(root: string, magics: seq<Magic>, os: Machine, pathInfo: string)
    requires ValidMachine(os) && Exists(os.fs, os.cwd, root + pathInfo)
    ensures FullPath(Shock(root, magics), os, pathInfo) == root + pathInfo
  {
  }

  /** A template served under its bare name: 200, validators from the clock,
      the type of the bare name, and the rendered template as the one chunk
      of the body. */
  lemma TemplateServed(root: string, magics: seq<Magic>, plat: Platform, os: Machine, environ: map<string, string>, k: nat)
    requires ValidMachine(os) && HasMethod(environ) && Method(environ) == "GET"
    requires var pathInfo := Get(environ, "PATH_INFO");
      !Exists(os.fs, os.cwd, root + pathInfo) &&
      k < |magics| && magics[k].extension != "" &&
      (forall j :: 0 <= j < k ==> !Exists(os.fs, os.cwd, NewPath(magics[j], root + pathInfo)))
    requires var aug := NewPath(magics[k], root + Get(environ, "PATH_INFO"));
      Stat(os.fs, os.cwd, aug).Some? && Stat(os.fs, os.cwd, aug).value.File? &&
      IsUnderRoot(os.cwd, root, aug) && MatchIndex(magics, aug) == Some(k)
    requires Get(environ, "HTTP_IF_MODIFIED_SINCE") == "" && Get(environ, "HTTP_IF_NONE_MATCH") == ""
    requires var aug := NewPath(magics[k], root + Get(environ, "PATH_INFO"));
      RenderBody(magics[k], plat, environ, Stat(os.fs, os.cwd, aug).value.content).Some?
    ensures var pathInfo := Get(environ, "PATH_INFO");
      var aug := NewPath(magics[k], root + pathInfo);
      var rendered := RenderBody(magics[k], plat, environ, Stat(os.fs, os.cwd, aug).value.content).value;
      Handle(Shock(root, magics), plat, os, environ) ==
        Answered(Response("200 OK",
                          [Header("Date", plat.formatDate(os.now)),
                           Header("Last-Modified", plat.formatDate(os.now)),
                           Header("ETag", plat.intText(os.now)),
                           Header("Content-Type", ContentType(plat, root + pathInfo))],
                          [rendered]))
  {
    var h := Shock(root, magics);
    var pathInfo := Get(environ, "PATH_INFO");
    var aug := NewPath(magics[k], root + pathInfo);
    MissingPathUsesFirstTemplate(root, magics, os.fs, os.cwd, pathInfo, k);
    assert FullPath(Shock(root, magics), os, pathInfo) == aug;
    assert !IsDir(os.fs, os.cwd, aug);
    assert Handle(Shock(root, magics), plat, os, environ) == Serve(h, plat, os, environ, aug);
    TemplateRendered(h, plat, os, environ, root + pathInfo, k);
  }

  /** Serving an augmented template path with no conditional headers. */
  lemma TemplateRendered(h: Handler, plat: Platform, os: Machine, environ: map<string, string>, bare: string, k: nat)
    requires ValidMachine(os) && HasMethod(environ) && Method(environ) == "GET"
    requires k < |h.magics| && h.magics[k].extension != ""
    requires var aug := NewPath(h.magics[k], bare);
      Stat(os.fs, os.cwd, aug).Some? && Stat(os.fs, os.cwd, aug).value.File? &&
      MatchIndex(h.magics, aug) == Some(k)
    requires Get(environ, "HTTP_IF_MODIFIED_SINCE") == "" && Get(environ, "HTTP_IF_NONE_MATCH") == ""
    requires var aug := NewPath(h.magics[k], bare);
      RenderBody(h.magics[k], plat, environ, Stat(os.fs, os.cwd, aug).value.content).Some?
    ensures var aug := NewPath(h.magics[k], bare);
      var rendered := RenderBody(h.magics[k], plat, environ, Stat(os.fs, os.cwd, aug).value.content).value;
      Serve(h, plat, os, environ, aug) ==
        Answered(Response("200 OK",
                          [Header("Date", plat.formatDate(os.now)),
                           Header("Last-Modified", plat.formatDate(os.now)),
                           Header("ETag", plat.intText(os.now)),
                           Header("Content-Type", ContentType(plat, bare))],
                          [rendered]))
  {
    var aug := NewPath(h.magics[k], bare);
    AugmentedTypedByBareName(h.magics, plat, bare, k);
    assert MatchMagic(h.magics, aug) == Some(h.magics[k]);
  }

  /** A path that ends in a magic's extension takes its validators from the
      clock without a `stat`, so when neither it nor any augmented form
      exists, `If-None-Match: *` gets 304 for a file that is not there. */
  lemma MissingTemplateStar(root: string, magics: seq<Magic>, plat: Platform, os: Machine, environ: map<string, string>)
    requires ValidMachine(os) && GetOrHead(environ)
    requires var full := root + Get(environ, "PATH_INFO");
      !Exists(os.fs, os.cwd, full) && IsUnderRoot(os.cwd, root, full) && MatchMagic(magics, full).Some? &&
      (forall k :: 0 <= k < |magics| ==> !Exists(os.fs, os.cwd, NewPath(magics[k], full)))
    requires Get(environ, "HTTP_IF_MODIFIED_SINCE") == "" && Get(environ, "HTTP_IF_NONE_MATCH") == "*"
    ensures Handle(Shock(root, magics), plat, os, environ).response.status == "304 Not Modified"
  {
    var h := Shock(root, magics);
    var full := root + Get(environ, "PATH_INFO");
    assert FullPath(h, os, Get(environ, "PATH_INFO")) == full;
    assert Handle(h, plat, os, environ) == Serve(h, plat, os, environ, full);
    ConditionalAnswer(h, plat, os, environ, full);
  }

  /** The same request without conditional headers: the open fails, 404. */
  lemma MissingTemplateNotFound(root: string, magics: seq<Magic>, plat: Platform, os: Machine, environ: map<string, string>)
    requires ValidMachine(os) && GetOrHead(environ)
    requires var full := root + Get(environ, "PATH_INFO");
      !Exists(os.fs, os.cwd, full) && IsUnderRoot(os.cwd, root, full) && MatchMagic(magics, full).Some? &&
      (forall k :: 0 <= k < |magics| ==> !Exists(os.fs, os.cwd, NewPath(magics[k], full)))
    requires Get(environ, "HTTP_IF_MODIFIED_SINCE") == "" && Get(environ, "HTTP_IF_NONE_MATCH") == ""
    requires !EmbeddedNul(root + Get(environ, "PATH_INFO"))
    ensures Handle(Shock(root, magics), plat, os, environ).Answered?
    ensures Handle(Shock(root, magics), plat, os, environ).response.status == "404 Not Found"
  {
    var h := Shock(root, magics);
    var full := root + Get(environ, "PATH_INFO");
    assert FullPath(h, os, Get(environ, "PATH_INFO")) == full;
    assert Handle(h, plat, os, environ) == Serve(h, plat, os, environ, full);
    OpenFailureNotFound(h, plat, os, environ, full);
  }
}

=== FILE: utf8.dfy ===
/** `str.encode('utf-8')`: each character becomes one to four bytes
    (RFC 3629, section 3), and a decoder that reads them back is its
    partner. */
module Utf8 {
  import opened Common

  predicate IsAscii(s: string)
  {
    forall i :: 0 <= i < |s| ==> s[i] as int < 128
  }

  predicate IsContinuation(b: byte)
  {
    0x80 <= b < 0xC0
  }

  /** How many bytes a character whose first byte is `b` takes; 0 when `b`
      cannot start one. */
  function LeadLength(b: byte): nat
  {
    if b < 0x80 then 1
    else if 0xC0 <= b < 0xE0 then 2
    else if 0xE0 <= b < 0xF0 then 3
    else if 0xF0 <= b < 0xF8 then 4
    else 0
  }

  /** How many bytes section 3 of RFC 3629 gives the code point `cp`: the
      shortest form that holds it. */
  function Width(cp: int): nat
  {
    if cp < 0x80 then 1
    else if cp < 0x800 then 2
    else if cp < 0x10000 then 3
    else 4
  }

  /** The bytes of one character. */
  function EncodeChar(c: char): (r: Bytes)
    ensures |r| == Width(c as int)
    ensures 1 <= |r| <= 4 && |r| == LeadLength(r[0])
    ensures |r| == 1 <==> c as int < 128
    ensures |r| == 1 ==> r[0] as int == c as int
    ensures forall i :: 1 <= i < |r| ==> IsContinuation(r[i])
  {
    var cp := c as int;
    if cp < 0x80 then [cp as byte]
    else if cp < 0x800 then [(0xC0 + cp / 64) as byte, (0x80 + cp % 64) as byte]
    else if cp < 0x10000 then
      [(0xE0 + cp / 4096) as byte, (0x80 + cp / 64 % 64) as byte, (0x80 + cp % 64) as byte]
    else
      [(0xF0 + cp / 262144) as byte, (0x80 + cp / 4096 % 64) as byte,
       (0x80 + cp / 64 % 64) as byte, (0x80 + cp % 64) as byte]
  }

  /** The character one to four bytes stand for, when they are laid out as
      `EncodeChar` lays them out: a first byte announcing their number,
      continuation bytes after it, the shortest form for the code point and
      not a surrogate. */
  function DecodeChar(bs: Bytes): Option<char>
  {
    var cp :=
      if |bs| == 1 then bs[0] as int
      else if |bs| == 2 then (bs[0] as int - 0xC0) * 64 + (bs[1] as int - 0x80)
      else if |bs| == 3 then
        (bs[0] as int - 0xE0) * 4096 + (bs[1] as int - 0x80) * 64 + (bs[2] as int - 0x80)
      else if |bs| == 4 then
        (bs[0] as int - 0xF0) * 262144 + (bs[1] as int - 0x80) * 4096 +
        (bs[2] as int - 0x80) * 64 + (bs[3] as int - 0x80)
      else -1;
    if |bs| == 0 || LeadLength(bs[0]) != |bs| then None
    else if exists i :: 1 <= i < |bs| && !IsContinuation(bs[i]) then None
    else if (0 <= cp < 0xD800 || 0xE000 <= cp < 0x110000) && Width(cp) == |bs| then Some(cp as char)
    else None
  }

  /** Every character's bytes decode back to it. */
  lemma CharRoundTrip(c: char)
    ensures DecodeChar(EncodeChar(c)) == Some(c)
  {
    var cp := c as int;
    var r := EncodeChar(c);
    if cp < 0x80 {
    } else if cp < 0x800 {
      Digits2(cp);
      assert (r[0] as int - 0xC0) * 64 + (r[1] as int - 0x80) == cp;
    } else if cp < 0x10000 {
      Digits3(cp);
      assert (r[0] as int - 0xE0) * 4096 + (r[1] as int - 0x80) * 64 + (r[2] as int - 0x80) == cp;
    } else {
      Digits4(cp);
      assert (r[0] as int - 0xF0) * 262144 + (r[1] as int - 0x80) * 4096 +
             (r[2] as int - 0x80) * 64 + (r[3] as int - 0x80) == cp;
    }
  }

  lemma Digits2(cp: int)
    requires 0 <= cp
    ensures (cp / 64) * 64 + cp % 64 == cp
  {
  }

  lemma Digits3(cp: int)
    requires 0 <= cp
    ensures (cp / 4096) * 4096 + (cp / 64 % 64) * 64 + cp % 64 == cp
  {
    assert cp / 64 == (cp / 4096) * 64 + cp / 64 % 64;
  }

  lemma Digits4(cp: int)
    requires 0 <= cp
    ensures (cp / 262144) * 262144 + (cp / 4096 % 64) * 4096 + (cp / 64 % 64) * 64 + cp % 64 == cp
  {
    Digits3(cp);
    assert cp / 4096 == (cp / 262144) * 64 + cp / 4096 % 64;
  }

  /** Whatever `DecodeChar` accepts is the encoding of the character it
      names: no second spelling of a character gets through. */
  lemma DecodedCharEncodes(bs: Bytes)
    requires DecodeChar(bs).Some?
    ensures EncodeChar(DecodeChar(bs).value) == bs
  {
    if |bs| == 2 {
      DecodedPairEncodes(bs);
    } else if |bs| == 3 {
      DecodedTripleEncodes(bs);
    } else if |bs| == 4 {
      DecodedQuadEncodes(bs);
    }
  }

  lemma DecodedPairEncodes(bs: Bytes)
    requires |bs| == 2 && DecodeChar(bs).Some?
    ensures EncodeChar(DecodeChar(bs).value) == bs
  {
    var r := EncodeChar(DecodeChar(bs).value);
    assert IsContinuation(bs[1]);
    var q, t := bs[0] as int - 0xC0, bs[1] as int - 0x80;
    DivMod(q, t, 64);
    assert r[0] == bs[0] && r[1] == bs[1];
  }

  lemma DecodedTripleEncodes(bs: Bytes)
    requires |bs| == 3 && DecodeChar(bs).Some?
    ensures EncodeChar(DecodeChar(bs).value) == bs
  {
    var r := EncodeChar(DecodeChar(bs).value);
    assert IsContinuation(bs[1]) && IsContinuation(bs[2]);
    var q, t, u := bs[0] as int - 0xE0, bs[1] as int - 0x80, bs[2] as int - 0x80;
    DivMod(q * 64 + t, u, 64);
    DivMod(q, t, 64);
    DivMod(q, t * 64 + u, 4096);
    assert r[0] == bs[0] && r[1] == bs[1] && r[2] == bs[2];
  }

  lemma DecodedQuadEncodes(bs: Bytes)
    requires |bs| == 4 && DecodeChar(bs).Some?
    ensures EncodeChar(DecodeChar(bs).value) == bs
  {
    var r := EncodeChar(DecodeChar(bs).value);
    assert IsContinuation(bs[1]) && IsContinuation(bs[2]) && IsContinuation(bs[3]);
    var q, t, u, v := bs[0] as int - 0xF0, bs[1] as int - 0x80, bs[2] as int - 0x80, bs[3] as int - 0x80;
    DivMod((q * 64 + t) * 64 + u, v, 64);
    DivMod(q * 64 + t, u, 64);
    DivMod(q * 64 + t, u * 64 + v, 4096);
    DivMod(q, t, 64);
    DivMod(q, (t * 64 + u) * 64 + v, 262144);
    assert r[0] == bs[0] && r[1] == bs[1] && r[2] == bs[2] && r[3] == bs[3];
  }

  lemma DivMod(q: int, t: int, d: int)
    requires 0 <= q && 0 <= t < d
    ensures (q * d + t) / d == q && (q * d + t) % d == t
  {
    var a := q * d + t;
    var k, m := a / d, a % d;
    assert a == k * d + m && 0 <= m < d;
    assert (q - k) * d == m - t;
    if q - k >= 1 {
      assert false;
    } else if q - k <= -1 {
      assert false;
    }
  }

  /** `s.encode('utf-8')`: the characters' bytes laid end to end. */
  function Encode(s: string): Bytes
  {
    Concat(seq(|s|, i requires 0 <= i < |s| => EncodeChar(s[i])))
  }

  /** The first character's bytes come first. */
  lemma EncodeCons(s: string)
    requires |s| > 0
    ensures Encode(s) == EncodeChar(s[0]) + Encode(s[1..])
  {
    var all := seq(|s|, i requires 0 <= i < |s| => EncodeChar(s[i]));
    var tail := seq(|s| - 1, i requires 0 <= i < |s| - 1 => EncodeChar(s[1..][i]));
    assert all[1..] == tail;
  }

  /** An encoding takes one to four bytes per character, exactly one per
      character precisely when the string is ASCII, and then each byte is
      the character's code. */
  lemma {:induction false} EncodeSize(s: string)
    ensures |s| <= |Encode(s)| <= 4 * |s|
    ensures |Encode(s)| == |s| <==> IsAscii(s)
    ensures IsAscii(s) ==> forall i :: 0 <= i < |s| ==> Encode(s)[i] as int == s[i] as int
    decreases |s|
  {
    if |s| > 0 {
      EncodeCons(s);
      EncodeSize(s[1..]);
      var e := EncodeChar(s[0]);
      if IsAscii(s) {
        assert IsAscii(s[1..]) by {
          forall i | 0 <= i < |s| - 1 ensures s[1..][i] as int < 128 {
            assert s[1..][i] == s[i + 1];
          }
        }
        forall i | 0 <= i < |s| ensures Encode(s)[i] as int == s[i] as int {
          if i > 0 {
            assert Encode(s)[i] == Encode(s[1..])[i - 1];
            assert s[1..][i - 1] == s[i];
          }
        }
      } else if |Encode(s)| == |s| {
        assert |e| == 1;
        assert IsAscii(s[1..]);
        forall i | 0 <= i < |s| ensures s[i] as int < 128 {
          if i > 0 {
            assert s[i] == s[1..][i - 1];
          }
        }
        assert false;
      }
    }
  }

  /** Reads a byte string back into characters, or `None` when it is not a
      sequence of encoded characters. */
  function Decode(bs: Bytes): Option<string>
    decreases |bs|
  {
    if |bs| == 0 then Some([])
    else
      var n := LeadLength(bs[0]);
      if n == 0 || n > |bs| then None
      else
        match DecodeChar(bs[..n])
        case None => None
        case Some(c) =>
          match Decode(bs[n..])
          case None => None
          case Some(rest) => Some([c] + rest)
  }

  /** Decoding the encoding of a string gives the string back. */
  lemma {:induction false} EncodeRoundTrip(s: string)
    ensures Decode(Encode(s)) == Some(s)
    decreases |s|
  {
    if |s| > 0 {
      var e := EncodeChar(s[0]);
      var rest := Encode(s[1..]);
      var bs := e + rest;
      EncodeCons(s);
      assert bs[0] == e[0];
      assert bs[..|e|] == e;
      assert bs[|e|..] == rest;
      CharRoundTrip(s[0]);
      EncodeRoundTrip(s[1..]);
      assert s == [s[0]] + s[1..];
    }
  }

  /** Whatever `Decode` accepts is the encoding of the string it returns:
      decoding is one-to-one. */
  lemma {:induction false} DecodedEncodes(bs: Bytes)
    requires Decode(bs).Some?
    ensures Encode(Decode(bs).value) == bs
    decreases |bs|
  {
    var s := Decode(bs).value;
    if |bs| > 0 {
      var n := LeadLength(bs[0]);
      var c := DecodeChar(bs[..n]).value;
      DecodedCharEncodes(bs[..n]);
      DecodedEncodes(bs[n..]);
      assert s == [c] + Decode(bs[n..]).value;
      EncodeCons(s);
      assert s[1..] == Decode(bs[n..]).value;
      assert bs == bs[..n] + bs[n..];
    }
  }
}
